=== FILE: README.md ===
# Tweet normalisation, stream registry and subscription commands

A Dafny model of the core of a bot that forwards provider (Twitter) statuses
to Telegram chats. The model covers two parts.

- `job.py`:
  - `parse_tweet` turns a decoded status into the bot's tweet record. It
    unescapes the text and rewrites retweets and quotes into a "♻ @user: text"
    line. It strips the trailing quote link, collects photo and video media
    (`parse_tweet_media`) and expands the URL entities in place.
  - The job's `streams` map holds one provider stream per chat, with the
    account ids the stream follows. `stream_as_thread`,
    `subscription_changed` and `run` maintain it.
  - `update` purges chats marked for deletion.
- `commands.py`: `/sub`, `/unsub` and `/list`. Each is a transition on the
  subscription table plus the reply text sent back to the chat.

Modules:

| module | file | what it holds |
|---|---|---|
| `Wrappers` | wrappers.dfy | `Option` and `Result` |
| `Text` | text.dfy | Python's `str.replace`, `str.split`, `sep.join` and `s[i:j]`, with their laws |
| `Html` | html.dfy | `html.unescape` for the five entities the provider emits, and its inverse |
| `Decimal` | decimal.dfy | `str(int)` and its inverse |
| `Tweets` | tweets.dfy | the decoded status and the tweet record |
| `Normalizer` | normalizer.dfy | `parse_tweet` and `parse_tweet_media` |
| `Store` | store.dfy | chats, subscription rows (in insertion order) and `update` |
| `Streams` | streams.dfy | the `streams` map, `stream_as_thread`, `subscription_changed` and `run` |
| `Commands` | commands.dfy | `cmd_sub`, `cmd_unsub` and `cmd_list` |

Some effects are replaced by plain values:

- Threads and provider connections: opening a stream yields an opaque
  `StreamHandle` that the caller passes in. `run` returns the handles it
  disconnected and the chats it started a thread for.
- The account lookup `bot.get_tw_user` is a finite map from user name to
  account.
- The database is a value. The chats are a map. The account table maps an
  account id to the account's record. The subscription table is a sequence of
  rows, each holding a chat id and an account id. Rows are compared on these
  keys, and names are read through the account table.
- The queries at job.py:48 and commands.py:137 have no `ORDER BY`. The model
  assumes they return rows in insertion order. Nothing proved here depends on
  that beyond the order of the list and of the follow filter.

## Model

| member | source | states |
|---|---|---|
| `Normalizer.ParseTweet` | job.py:73-105 | a parsed status keeps the status's id, creation time, author name and screen name |
| `Normalizer.ParseFailsExactly` | job.py:73-118 | a status fails to parse exactly when a processed video has no bitrate-bearing variant or a remaining URL entity has fewer than two indices |
| `Normalizer.ParseMediaList` | job.py:91-95 | the media list has one item per processed entity, in entity order, with the quoted status's entities before the status's own |
| `Normalizer.MediaStageItems` | job.py:86-95 | after the quote and media steps, the media list is exactly the items of the selected entities |
| `Normalizer.QuotedStageItems` | job.py:86-92 | the quote step contributes exactly the quoted status's media items, and none without a quote |
| `Normalizer.OwnMediaStepItems` | job.py:94-97 | the status's own media are appended after what is already in the list, which is kept |
| `Normalizer.ParseTweetKeepsMediaStage` | job.py:99-105 | URL expansion changes only the text: the media list and link are those of the media step |
| `Normalizer.ParseLinkUrl` | job.py:94-97 | the link is the first URL entity's expanded form exactly when there is no quote, no media of its own and at least one URL entity |
| `Normalizer.RetweetDiscardsOuterText` | job.py:82-84 | a retweet without quote, media or URL entities has the share line of the retweeted status as its text, no media and no link |
| `Normalizer.RetweetMediaStageIgnoresOuterText` | job.py:82-97 | up to URL expansion, a retweet's result does not depend on the outer text, with or without a quote or media |
| `Normalizer.RetweetIgnoresOuterText` | job.py:82-105 | a retweet with no URL entities left to expand (a quote clears them) parses the same whatever its outer text |
| `Normalizer.QuoteRewritesText` | job.py:86-89 | for a quote where neither status has media, the text is the earlier text (the retweet line for a retweet, else the unescaped text) with its trailing link stripped, a newline, then the quoted status's share line |
| `Normalizer.QuoteIgnoresUrls` | job.py:90 | under a quote the status's own URL entities have no effect |
| `Normalizer.PlainTweetExpandsUrls` | job.py:73-105 | a plain status is its unescaped text with the URL entities expanded, and the first URL becomes the link |
| `Normalizer.SingleLinkExpanded` | job.py:99-103 | a text that ends in its only link, with that link's indices, gets the expanded URL in place of the link |
| `Normalizer.ExampleLinkTweet` | job.py:99-103 | a concrete status "Check this out t.co/abc" with indices [15, 23] becomes "Check this out https://example.com/page" |
| `Normalizer.ExpandUrls` | job.py:99-103 | expansion succeeds exactly when every entity has at least two indices |
| `Normalizer.ExpandOneUrl` | job.py:102-103 | expanding one entity cuts the text at the occurrences of the display text and glues it back with the expanded URL |
| `Normalizer.ExpandUrlsAbsent` | job.py:99-103 | entities whose display text does not occur leave the text unchanged |
| `Normalizer.ExpandFinalLink` | job.py:99-103 | a text that ends in the entity's link has exactly that link replaced |
| `Normalizer.ParseTweetMedia` | job.py:107-118 | succeeds exactly when every entity yields an item; keeps the tweet's identity and link, keeps the existing items and appends one item per entity in order |
| `Normalizer.ReplaceRemovesLink` | job.py:109 | `replace(url, "")` deletes exactly the occurrences of the link: the text is cut at them and glued back; an empty link deletes nothing |
| `Normalizer.OneMediaText` | job.py:108-109 | one media entity deletes every occurrence of its short link from the text |
| `Normalizer.ParseTweetMediaText` | job.py:107-118 | the media step's text is the text with each entity's short link deleted in turn |
| `Normalizer.MediaLinksAbsentKeepText` | job.py:108-109 | media whose short links are absent from the text leave the text unchanged |
| `Normalizer.MediaOf` | job.py:110-117 | a photo records `media_url_https`; a video succeeds exactly when some variant declares a bitrate and then records the best variant's URL |
| `Normalizer.BestVariant` | job.py:111-112 | there is no choice exactly when no variant declares a bitrate; otherwise the choice has the largest bitrate and is the first with it |
| `Normalizer.BestVariantUnique` | job.py:112 | the best variant is unique |
| `Normalizer.ExampleVideoVariants` | job.py:110-113 | variants with bitrates 128 (A), 512 (B) and none (C) yield a video with URL B |
| `Normalizer.TrailingIdRun` | job.py:87 | the length of the longest suffix made of characters of the class `[1-9a-zA-Z]` |
| `Normalizer.TrailingLinkStart` | job.py:87 | finds where a trailing short link starts; the position found is a link, and every trailing link starts there |
| `Normalizer.TrailingIdRunExact` | job.py:87 | a run of id characters that starts the text or follows a non-id character is exactly the trailing run |
| `Normalizer.ShortLinkIsTrailingRun` | job.py:87 | a link that ends the text spans exactly the run of id characters plus the fixed prefix |
| `Normalizer.StripTrailingLink` | job.py:87 | the substitution never lengthens the text |
| `Normalizer.StripRemovesLink` | job.py:87 | a text ending in " https://t.co/" plus an id loses exactly that suffix |
| `Normalizer.StripRemovesLinkBeforeNewline` | job.py:87 | `$` also matches before a final newline: the link goes and the newline stays |
| `Normalizer.StripKeepsUnlinked` | job.py:87 | a text with no trailing link, even before a final newline, is unchanged |
| `Html.UnescapeEscape` | job.py:76 | unescaping undoes the provider's escaping of `&`, `<` and `>` |
| `Html.UnescapePlain` | job.py:76 | text without `&` is unchanged by unescaping |
| `Html.UnescapeOrdinary` | job.py:76 | a character other than `&` is copied and unescaping goes on after it |
| `Html.UnescapeAfterEscapedChar` | job.py:76 | an escaped character decodes to itself and decoding goes on after it |
| `Html.Unescape` | job.py:76 | unescaping never lengthens the text |
| `Text.ReplaceIsJoinOfSplit` | job.py:103 | `replace` is the same as cutting at the occurrences and joining with the replacement |
| `Text.JoinSplit` | job.py:103 | joining the pieces of a split with the separator gives the string back |
| `Text.SplitPiecesFree` | job.py:103 | no piece of a split contains the separator |
| `Text.SplitHeadIsPrefix` | job.py:103 | the first piece of a split is a prefix of the string |
| `Text.ReplaceAbsent` | job.py:103 | replacing a pattern that does not occur changes nothing |
| `Text.InterleaveEmpty` | job.py:109 | replacing the empty string with the empty string is the identity |
| `Text.ReplaceAfterAbsent` | job.py:103 | a stretch where the pattern never starts is copied, and replacement goes on after it |
| `Text.JoinContains` | commands.py:78-91 | every part of a join occurs in the result |
| `Text.PySlice` | job.py:102 | a slice never raises; within bounds it is the ordinary slice; its length is the distance between the clamped bounds, or zero when they are reversed; and it occurs in the string at the clamped start |
| `Text.ClampIndex` | job.py:102 | negative bounds count from the end; a bound past the end becomes the length, and one before the start becomes zero |
| `Decimal.ParseIntToStr` | job.py:49 | the decimal string of an id parses back to the id |
| `Decimal.IntToStrInjective` | job.py:49 | different ids have different decimal strings |
| `Decimal.DigitsValueNatToStr` | job.py:49 | the digits of a natural number read back as that number |
| `Decimal.NatToStr` | job.py:49 | `str` of a natural number is a non-empty string of digits with no leading zero |
| `Streams.UserIdStrings` | job.py:49 | one string per account id, in order, each of which parses back to that id |
| `Streams.FollowListDistinct` | job.py:48-49 | accounts with different ids get different filter entries |
| `Streams.StreamAsThread` | job.py:48-50 | records the chat's stream with a filter of its accounts' ids in row order, and leaves other chats alone |
| `Streams.SubscriptionChanged` | job.py:59-64 | removes exactly the chat's entry, disconnects a stream exactly when the chat had one (that stream), and leaves other chats alone |
| `Streams.SubscriptionChangedTwice` | job.py:50-64 | a second notification for the same chat, with no restart thread run in between, disconnects nothing |
| `Streams.RestartInstallsCurrentFilter` | job.py:41-64 | after a restart whose thread has run, the chat has one stream, which follows its current subscriptions |
| `Streams.Run` | job.py:66-71 | removes the entries of every listed chat, keeps the others, and starts one thread per chat in order |
| `Streams.RunDisconnects` | job.py:66-71 | the disconnected streams are exactly the streams the listed chats had before |
| `Store.Update` | job.py:53-57 | no flagged chat is left, either in the table or among the chats; unflagged chats are kept unchanged; exactly the rows of flagged chats are deleted, with the other chats' lists kept in order |
| `Store.UpdateIdempotent` | job.py:53-57 | a second purge changes nothing |
| `Store.ChatUsers` | commands.py:137-138 | an account id is listed for a chat exactly when the table has a row for that chat and account |
| `Store.Count` | commands.py:66-68 | the count is the number of rows with the chat and account keys: zero exactly when there is none, and at most one on a table without duplicates |
| `Commands.SubLoop` | commands.py:59-73 | one outcome per argument; not found exactly for unknown names, which are reported by name; a found name reports its account |
| `Commands.SubLoopRows` | commands.py:59-73 | the old rows stay in place and rows are only appended, all for this chat; afterwards the table holds exactly the old rows and every found argument's pair |
| `Commands.SubLoopOutcomes` | commands.py:59-73 | on a table without duplicates, a found account is subscribed exactly when neither the table nor an earlier argument has it, and no duplicates appear |
| `Commands.SubMatchesOnKey` | commands.py:59-70 | a chat that already follows the account a name is found as is told "already subscribed" and gets no new row, whatever record the lookup returns |
| `Commands.SubLoopAllPresent` | commands.py:66-70 | when every found account is subscribed already, the table is unchanged and nobody is subscribed |
| `Commands.SubTwiceAddsNothing` | commands.py:50-93 | running the same `/sub` twice adds nothing the second time |
| `Commands.CmdSub` | commands.py:50-93 | no arguments gives the usage text and no change; otherwise the reply is non-empty, the table gains exactly the found pairs, and other chats are untouched |
| `Commands.BucketsPartition` | commands.py:55-73 | every argument lands in exactly one reply bucket |
| `Commands.SubSectionsShape` | commands.py:77-91 | each reply section is present exactly when its bucket is non-empty |
| `Commands.NotFoundPlural` | commands.py:78-79 | "usernames" is plural exactly when more than one name was not found |
| `Commands.SubReplyNamesEveryArgument` | commands.py:75-91 | the reply names every argument: an unknown one by its user name, a found one by the account's full name |
| `Commands.UnsubLoop` | commands.py:105-118 | one outcome per argument; afterwards the table holds exactly the old rows not requested; other chats are untouched and no duplicates appear |
| `Commands.UnsubLoopOutcomes` | commands.py:105-118 | a found account is unsubscribed exactly when the chat had it and no earlier argument removed it |
| `Commands.RemoveRows` | commands.py:114-116 | deleting a chat and account pair removes exactly the rows with those keys; every other row keeps its number of copies; no duplicates are introduced |
| `Commands.UnsubMatchesOnKey` | commands.py:105-118 | an account the chat follows is unsubscribed by any name it is found as, and its row is gone |
| `Commands.RemoveRowsKeepsOtherChats` | commands.py:114-116 | deleting a pair leaves other chats' lists unchanged |
| `Commands.UnsubBucketsPartition` | commands.py:102-118 | every argument lands in exactly one reply bucket |
| `Commands.UnsubSectionsShape` | commands.py:120-130 | each `/unsub` reply section is present exactly when its bucket is non-empty |
| `Commands.CmdUnsub` | commands.py:97-132 | no arguments gives the usage text and no change; otherwise the reply is non-empty, the table loses exactly the found pairs, and other chats are untouched |
| `Commands.UnsubReplyNamesEveryArgument` | commands.py:120-130 | the reply names every argument: by full name when unsubscribed, by user name otherwise |
| `Commands.CmdList` | commands.py:135-152 | the table is unchanged; with no subscriptions the reply is the fixed hint; otherwise subject, header, one "\n - name" bullet per account in row order with the name from the account table, then the trailer |
| `Commands.JoinIsBullets` | commands.py:143-152 | joining with "\n - " after a leading empty element puts the bullet before every name |
| `Commands.ListMentionsEverySubscription` | commands.py:136-152 | every account the chat follows appears as a bullet, under the full name the account table holds now |
| `Commands.FullNames` | commands.py:143-145 | one full name per subscription, read from the account table through the row's account id, in order |

## Left out

- Threads, `tweepy` streams, OAuth and the listener's `on_data` (job.py:14-33, 41-47, 51, 63-64) are left out because they are I/O. A started thread is recorded, and its effect on the map is `Streams.StreamAsThread` applied by the caller.
- JSON decoding into `namedtuple` objects (job.py:24) is left out. Statuses are typed records whose optional fields are `Option`s. `hasattr(x, 'f')` and `'f' in x` are both read as "field `f` is present". On a `namedtuple`, `in` actually tests the values (job.py:91, 110, 112), and assigning `tweet.entities.urls = []` (job.py:90) would raise on an immutable tuple. The model follows the evident intent: quoted media are processed, videos are recognised, variants without a bitrate are skipped, and a quote clears the URL entities.
- `Html.Unescape` decodes only `&amp;`, `&lt;`, `&gt;`, `&quot;` and `&#39;`, not every HTML5 named or numeric reference `html.unescape` knows. The provider escapes only `&`, `<` and `>`.
- Logging, `pprint` and `bot.send_tweet`/`bot.reply` are left out. Replies are returned as strings.
- The `with_touched_chat` decorator, peewee and the schema in `models.py`, `bot.py` and `util.py` are not part of this model. The account table's key is taken to be the provider's account id. Every row's account is assumed present in the account table, as the foreign key guarantees (`Commands.RowsResolve`).
- The other commands in commands.py (`/ping`, `/start`, `/help`, `/wipe`, `/source`, `/auth`, `/verify`, `/set_timezone`, plain messages) and `main.py` are left out because they are outside the core.
- `Streams.Run` iterates over all chats. Its filter `TelegramChat.twitter_secret is not None` (job.py:68) compares a field object with `None`, so it is always true.
- `Store.Update` purges the table but does not touch the `streams` map, as in job.py:53-57. `run` only visits chats still in the table, and main.py:53 calls it once, at start-up. So a deleted chat's entry and its open connection stay for the life of the process.
- `Normalizer.MediaOf`: a video without any bitrate-bearing variant makes `max` raise (job.py:112), so the whole parse fails with `NoBitrateVariant`. No item is skipped.
- `Normalizer.MediaOf`: a photo records `media_url_https` (job.py:116), not the entity's short link.
- `Normalizer.ParseTweet`: a retweet does not short-circuit the later steps (job.py:82-97). A retweet that is also a quote gets both rewrites.
- `Normalizer.ParseTweet`: the display text of a URL entity is sliced from the raw, still escaped `tweet.text` (job.py:102) and replaced everywhere in the current text. An empty display text inserts the expanded URL at the start, between every two characters and at the end, as Python's `replace("", x)` does (`Text.Interleave`).
- `Normalizer.ExampleLinkTweet` uses indices [15, 23], where "t.co/abc" sits in "Check this out t.co/abc".
- `Commands.SubLoop` tests "already subscribed" as `count() == 1`, as commands.py:66-68 does. With duplicate rows a further row is created. `Commands.SubLoopOutcomes` states the membership reading under the no-duplicates invariant.
- The restart race between `stream_as_thread` and a second `subscription_changed` is not modelled. In this code `subscription_changed` is only called from `run`, and `cmd_sub`/`cmd_unsub` do not notify the job.

=== FILE: commands.dfy ===
/** The subscription commands `/sub`, `/unsub` and `/list`: each one is a
    transition on the subscription table plus a reply text. The account
    lookup `bot.get_tw_user` is a partial map from user names to accounts;
    rows are matched on the account's key, its id. */
module Commands {
  import opened Text
  import opened Store

  type Lookup = map<string, TwUser>

  /** The table after a command and the text sent back to the chat. */
  datatype CommandResult = CommandResult(rows: seq<Subscription>, reply: string)

  /** The table during a command's loop and the outcome of each argument so far. */
  datatype LoopState<O> = LoopState(rows: seq<Subscription>, outcomes: seq<O>)

  const SubUsage: string := "Use /sub username1 username2 username3 ..."
  const UnsubUsage: string := "Use /unsub username1 username2 username3 ..."
  const NoSubscriptionsText: string := "You have no subscriptions yet! Add one with /sub username"

  /** Some argument before position `i` names the same account as `args[i]`. */
  predicate NamedEarlier(lookup: Lookup, args: seq<string>, i: int)
    requires 0 <= i < |args| && args[i] in lookup
  {
    exists j :: 0 <= j < i && args[j] in lookup && lookup[args[j]].userId == lookup[args[i]].userId
  }

  /** The row of `chat` for the account `name` is found as. */
  function RowFor(lookup: Lookup, chat: ChatId, name: string): Subscription
    requires name in lookup
  {
    Subscription(chat, lookup[name].userId)
  }

  /** The pair some found argument of `args` names for `chat`. */
  predicate Requested(lookup: Lookup, chat: ChatId, args: seq<string>, s: Subscription) {
    exists i :: 0 <= i < |args| && args[i] in lookup && s == RowFor(lookup, chat, args[i])
  }

  /** The pairs requested by an argument list are those of all but its last
      argument plus the last one's. */
  lemma RequestedSnoc(lookup: Lookup, chat: ChatId, args: seq<string>)
    requires |args| > 0
    ensures forall s :: Requested(lookup, chat, args, s) <==>
      Requested(lookup, chat, args[..|args| - 1], s)
      || (args[|args| - 1] in lookup && s == RowFor(lookup, chat, args[|args| - 1]))
  {
    var init := args[..|args| - 1];
    assert forall i :: 0 <= i < |init| ==> args[i] == init[i];
  }

  /** Dropping the last argument does not change what the others were named earlier as. */
  lemma NamedEarlierInit(lookup: Lookup, args: seq<string>)
    requires |args| > 0
    ensures forall i :: 0 <= i < |args| - 1 && args[i] in lookup ==>
      NamedEarlier(lookup, args, i) == NamedEarlier(lookup, args[..|args| - 1], i)
  {
    var init := args[..|args| - 1];
    forall i | 0 <= i < |init| && args[i] in lookup
      ensures NamedEarlier(lookup, args, i) == NamedEarlier(lookup, init, i)
    {
      if NamedEarlier(lookup, args, i) {
        var j :| 0 <= j < i && args[j] in lookup && lookup[args[j]].userId == lookup[args[i]].userId;
        assert init[j] == args[j];
      }
    }
  }

  /** The last argument's row was requested before it exactly when an earlier
      argument names the same account. */
  lemma LastRequestedEarlier(lookup: Lookup, chat: ChatId, args: seq<string>)
    requires |args| > 0 && args[|args| - 1] in lookup
    ensures Requested(lookup, chat, args[..|args| - 1], RowFor(lookup, chat, args[|args| - 1]))
      <==> NamedEarlier(lookup, args, |args| - 1)
  {
    var init := args[..|args| - 1];
    var n := |args| - 1;
    var p := RowFor(lookup, chat, args[n]);
    if NamedEarlier(lookup, args, n) {
      var j :| 0 <= j < n && args[j] in lookup && lookup[args[j]].userId == lookup[args[n]].userId;
      assert init[j] == args[j];
      assert Requested(lookup, chat, init, p);
    }
    if Requested(lookup, chat, init, p) {
      var j :| 0 <= j < |init| && init[j] in lookup && p == RowFor(lookup, chat, init[j]);
      assert args[j] == init[j];
    }
  }

  // ---------------------------------------------------------------------
  // /sub

  /** Which bucket of the `/sub` reply an argument lands in. */
  datatype SubOutcome = NotFound(name: string) | AlreadySubscribed(user: TwUser) | Subscribed(user: TwUser)

  /** The loop of `cmd_sub`, argument by argument: unknown names are not
      found; an account with exactly one row for the chat is already
      subscribed; otherwise a row is created. */
  function SubLoop(rows: seq<Subscription>, lookup: Lookup, chat: ChatId, args: seq<string>)
    : (r: LoopState<SubOutcome>)
    ensures |r.outcomes| == |args|
    ensures forall i :: 0 <= i < |args| ==> (r.outcomes[i].NotFound? <==> args[i] !in lookup)
    ensures forall i :: 0 <= i < |args| && r.outcomes[i].NotFound? ==> r.outcomes[i].name == args[i]
    ensures forall i :: 0 <= i < |args| && !r.outcomes[i].NotFound? ==> r.outcomes[i].user == lookup[args[i]]
    decreases |args|
  {
    if |args| == 0 then LoopState(rows, [])
    else
      var init := args[..|args| - 1];
      var name := args[|args| - 1];
      var prev := SubLoop(rows, lookup, chat, init);
      if name !in lookup then LoopState(prev.rows, prev.outcomes + [NotFound(name)])
      else
        var u := lookup[name];
        if Count(prev.rows, RowFor(lookup, chat, name)) == 1
        then LoopState(prev.rows, prev.outcomes + [AlreadySubscribed(u)])
        else LoopState(prev.rows + [RowFor(lookup, chat, name)], prev.outcomes + [Subscribed(u)])
  }

  /** The table after the `/sub` loop: the old rows stay in place, rows are
      only appended, all for this chat, and the table holds exactly the old
      rows and the rows of the found arguments. */
  lemma {:induction false} SubLoopRows(rows: seq<Subscription>, lookup: Lookup, chat: ChatId, args: seq<string>)
    ensures |rows| <= |SubLoop(rows, lookup, chat, args).rows|
    ensures SubLoop(rows, lookup, chat, args).rows[..|rows|] == rows
    ensures forall k :: |rows| <= k < |SubLoop(rows, lookup, chat, args).rows| ==>
      SubLoop(rows, lookup, chat, args).rows[k].chat == chat
    ensures forall s :: s in SubLoop(rows, lookup, chat, args).rows <==> s in rows || Requested(lookup, chat, args, s)
    decreases |args|
  {
    if |args| > 0 {
      var init := args[..|args| - 1];
      SubLoopRows(rows, lookup, chat, init);
      RequestedSnoc(lookup, chat, args);
      var prev := SubLoop(rows, lookup, chat, init).rows;
      var r := SubLoop(rows, lookup, chat, args).rows;
      if r != prev {
        var p := RowFor(lookup, chat, args[|args| - 1]);
        assert r == prev + [p];
        assert r[..|rows|] == prev[..|rows|];
      }
    }
  }

  /** On a table without duplicate rows: a found account is subscribed exactly
      when neither the table nor an earlier argument already has it, and the
      table keeps having no duplicates. */
  lemma {:induction false} SubLoopOutcomes(rows: seq<Subscription>, lookup: Lookup, chat: ChatId, args: seq<string>)
    requires NoDuplicates(rows)
    ensures NoDuplicates(SubLoop(rows, lookup, chat, args).rows)
    ensures forall i :: 0 <= i < |args| && args[i] in lookup ==>
      (SubLoop(rows, lookup, chat, args).outcomes[i].Subscribed? <==>
        RowFor(lookup, chat, args[i]) !in rows && !NamedEarlier(lookup, args, i))
    decreases |args|
  {
    if |args| > 0 {
      var init := args[..|args| - 1];
      var n := |args| - 1;
      var name := args[n];
      SubLoopOutcomes(rows, lookup, chat, init);
      SubLoopRows(rows, lookup, chat, init);
      var prev := SubLoop(rows, lookup, chat, init);
      var r := SubLoop(rows, lookup, chat, args);
      assert forall i :: 0 <= i < |init| ==> args[i] == init[i];
      assert r.outcomes[..n] == prev.outcomes;
      NamedEarlierInit(lookup, args);
      if name in lookup {
        LastRequestedEarlier(lookup, chat, args);
        var p := RowFor(lookup, chat, name);
        assert p in prev.rows <==> p in rows || NamedEarlier(lookup, args, n);
      }
    }
  }

  function NotFoundNames(outs: seq<SubOutcome>): seq<string>
  {
    if |outs| == 0 then []
    else (if outs[0].NotFound? then [outs[0].name] else []) + NotFoundNames(outs[1..])
  }

  function AlreadyNames(outs: seq<SubOutcome>): seq<string>
  {
    if |outs| == 0 then []
    else (if outs[0].AlreadySubscribed? then [outs[0].user.fullName] else []) + AlreadyNames(outs[1..])
  }

  function SubscribedNames(outs: seq<SubOutcome>): seq<string>
  {
    if |outs| == 0 then []
    else (if outs[0].Subscribed? then [outs[0].user.fullName] else []) + SubscribedNames(outs[1..])
  }

  /** Every argument lands in exactly one bucket. */
  lemma {:induction false} BucketsPartition(outs: seq<SubOutcome>)
    ensures |NotFoundNames(outs)| + |AlreadyNames(outs)| + |SubscribedNames(outs)| == |outs|
    decreases |outs|
  {
    if |outs| > 0 {
      BucketsPartition(outs[1..]);
    }
  }

  /** Each outcome's name is in its bucket. */
  lemma {:induction false} BucketsContain(outs: seq<SubOutcome>, i: nat)
    requires i < |outs|
    ensures outs[i].NotFound? ==> outs[i].name in NotFoundNames(outs)
    ensures outs[i].AlreadySubscribed? ==> outs[i].user.fullName in AlreadyNames(outs)
    ensures outs[i].Subscribed? ==> outs[i].user.fullName in SubscribedNames(outs)
    decreases |outs|
  {
    if i > 0 {
      BucketsContain(outs[1..], i - 1);
    }
  }

  /** `username` takes an `s` when more than one name was not found. */
  function NotFoundSection(names: seq<string>): (r: string)
  {
    if |names| == 0 then ""
    else "Sorry, I didn't find username" + (if |names| == 1 then "" else "s") + " " + Join(", ", names) + "\n\n"
  }

  function AlreadySection(names: seq<string>): string
  {
    if |names| == 0 then "" else "You're already subscribed to " + Join(", ", names) + "\n\n"
  }

  function SubscribedSection(names: seq<string>): string
  {
    if |names| == 0 then "" else "I've added your subscription to " + Join(", ", names)
  }

  /** The `/sub` reply: not-found, already-subscribed and subscribed sections in that order. */
  function SubReply(outs: seq<SubOutcome>): string
  {
    NotFoundSection(NotFoundNames(outs)) + AlreadySection(AlreadyNames(outs)) + SubscribedSection(SubscribedNames(outs))
  }

  /** A section is present exactly when its bucket is not empty. */
  lemma SubSectionsShape(nf: seq<string>, al: seq<string>, ad: seq<string>)
    ensures NotFoundSection(nf) == "" <==> nf == []
    ensures AlreadySection(al) == "" <==> al == []
    ensures SubscribedSection(ad) == "" <==> ad == []
  {
  }

  /** `usernames` is written in the plural exactly for more than one name. */
  lemma NotFoundPlural(nf: seq<string>)
    requires |nf| > 0
    ensures StartsWith(NotFoundSection(nf), "Sorry, I didn't find usernames ") <==> |nf| > 1
  {
    var sec := NotFoundSection(nf);
    var header := "Sorry, I didn't find username" + (if |nf| == 1 then "" else "s") + " ";
    assert sec == header + (Join(", ", nf) + "\n\n");
    if |nf| == 1 {
      assert header == "Sorry, I didn't find username ";
      assert sec[..31][29] == header[29] == ' ';
    } else {
      assert header == "Sorry, I didn't find usernames ";
      assert sec[..|header|] == header;
    }
  }

  lemma SubReplyMentions(outs: seq<SubOutcome>, i: nat)
    requires i < |outs|
    ensures Occurs(SubReply(outs), if outs[i].NotFound? then outs[i].name else outs[i].user.fullName)
  {
    BucketsContain(outs, i);
    var nf := NotFoundNames(outs);
    var al := AlreadyNames(outs);
    var ad := SubscribedNames(outs);
    var a := NotFoundSection(nf);
    var b := AlreadySection(al);
    var c := SubscribedSection(ad);
    assert SubReply(outs) == a + (b + c);
    if outs[i].NotFound? {
      var k :| 0 <= k < |nf| && nf[k] == outs[i].name;
      JoinContains(", ", nf, k);
      var head := "Sorry, I didn't find username" + (if |nf| == 1 then "" else "s") + " ";
      OccursInSuffix(head, Join(", ", nf), nf[k]);
      OccursInPrefix(head + Join(", ", nf), "\n\n", nf[k]);
      OccursInPrefix(a, b + c, nf[k]);
    } else if outs[i].AlreadySubscribed? {
      var k :| 0 <= k < |al| && al[k] == outs[i].user.fullName;
      JoinContains(", ", al, k);
      OccursInSuffix("You're already subscribed to ", Join(", ", al), al[k]);
      OccursInPrefix("You're already subscribed to " + Join(", ", al), "\n\n", al[k]);
      OccursInPrefix(b, c, al[k]);
      OccursInSuffix(a, b + c, al[k]);
    } else {
      var k :| 0 <= k < |ad| && ad[k] == outs[i].user.fullName;
      JoinContains(", ", ad, k);
      OccursInSuffix("I've added your subscription to ", Join(", ", ad), ad[k]);
      OccursInSuffix(b, c, ad[k]);
      OccursInSuffix(a, b + c, ad[k]);
    }
  }

  lemma {:induction false} ChatUsersConcat(a: seq<Subscription>, b: seq<Subscription>, chat: ChatId)
    ensures ChatUsers(a + b, chat) == ChatUsers(a, chat) + ChatUsers(b, chat)
    decreases |a|
  {
    if |a| == 0 {
      assert a + b == b;
    } else {
      assert (a + b)[1..] == a[1..] + b;
      ChatUsersConcat(a[1..], b, chat);
    }
  }

  lemma {:induction false} ChatUsersNone(rows: seq<Subscription>, chat: ChatId)
    requires forall k :: 0 <= k < |rows| ==> rows[k].chat != chat
    ensures ChatUsers(rows, chat) == []
    decreases |rows|
  {
    if |rows| > 0 {
      assert forall k :: 0 <= k < |rows| - 1 ==> rows[1..][k] == rows[k + 1];
      ChatUsersNone(rows[1..], chat);
    }
  }

  /** Rows appended for one chat do not change what another chat follows. */
  lemma AppendedRowsKeepOtherChats(rows: seq<Subscription>, r: seq<Subscription>, chat: ChatId, other: ChatId)
    requires |rows| <= |r| && r[..|rows|] == rows
    requires forall k :: |rows| <= k < |r| ==> r[k].chat == chat
    requires other != chat
    ensures ChatUsers(r, other) == ChatUsers(rows, other)
  {
    var extra := r[|rows|..];
    assert r == rows + extra;
    ChatUsersConcat(rows, extra, other);
    assert forall k :: 0 <= k < |extra| ==> extra[k] == r[|rows| + k];
    ChatUsersNone(extra, other);
  }

  lemma SubLoopKeepsOtherChats(rows: seq<Subscription>, lookup: Lookup, chat: ChatId, args: seq<string>)
    ensures forall c :: c != chat ==> ChatUsers(SubLoop(rows, lookup, chat, args).rows, c) == ChatUsers(rows, c)
    ensures NoDuplicates(rows) ==> NoDuplicates(SubLoop(rows, lookup, chat, args).rows)
  {
    var r := SubLoop(rows, lookup, chat, args).rows;
    SubLoopRows(rows, lookup, chat, args);
    forall c | c != chat
      ensures ChatUsers(r, c) == ChatUsers(rows, c)
    {
      AppendedRowsKeepOtherChats(rows, r, chat, c);
    }
    if NoDuplicates(rows) {
      SubLoopOutcomes(rows, lookup, chat, args);
    }
  }

  /** `cmd_sub`. */
  function CmdSub(rows: seq<Subscription>, lookup: Lookup, chat: ChatId, args: seq<string>): (r: CommandResult)
    ensures |args| == 0 ==> r == CommandResult(rows, SubUsage)
    ensures |args| > 0 ==> |r.reply| > 0
    ensures forall s :: s in r.rows <==> s in rows || Requested(lookup, chat, args, s)
    ensures forall c :: c != chat ==> ChatUsers(r.rows, c) == ChatUsers(rows, c)
    ensures NoDuplicates(rows) ==> NoDuplicates(r.rows)
  {
    if |args| == 0 then CommandResult(rows, SubUsage)
    else
      var LoopState(rows', outs) := SubLoop(rows, lookup, chat, args);
      BucketsPartition(outs);
      SubLoopRows(rows, lookup, chat, args);
      SubSectionsShape(NotFoundNames(outs), AlreadyNames(outs), SubscribedNames(outs));
      SubLoopKeepsOtherChats(rows, lookup, chat, args);
      CommandResult(rows', SubReply(outs))
  }

  /** The `/sub` reply names every argument: by user name when it was not
      found, by the account's full name otherwise. */
  lemma SubReplyNamesEveryArgument(rows: seq<Subscription>, lookup: Lookup, chat: ChatId, args: seq<string>, i: nat)
    requires i < |args|
    ensures Occurs(CmdSub(rows, lookup, chat, args).reply,
                   if args[i] in lookup then lookup[args[i]].fullName else args[i])
  {
    SubReplyMentions(SubLoop(rows, lookup, chat, args).outcomes, i);
  }

  /** A `/sub` of names that are all subscribed already changes nothing and
      subscribes nobody. */
  lemma {:induction false} SubLoopAllPresent(rows: seq<Subscription>, lookup: Lookup, chat: ChatId, args: seq<string>)
    requires NoDuplicates(rows)
    requires forall i :: 0 <= i < |args| && args[i] in lookup ==> RowFor(lookup, chat, args[i]) in rows
    ensures SubLoop(rows, lookup, chat, args).rows == rows
    ensures forall i :: 0 <= i < |args| ==> !SubLoop(rows, lookup, chat, args).outcomes[i].Subscribed?
    decreases |args|
  {
    if |args| > 0 {
      var init := args[..|args| - 1];
      assert forall i :: 0 <= i < |init| ==> init[i] == args[i];
      SubLoopAllPresent(rows, lookup, chat, init);
    }
  }

  /** Running the same `/sub` twice adds nothing the second time. */
  lemma SubTwiceAddsNothing(rows: seq<Subscription>, lookup: Lookup, chat: ChatId, args: seq<string>)
    requires NoDuplicates(rows)
    ensures CmdSub(CmdSub(rows, lookup, chat, args).rows, lookup, chat, args).rows == CmdSub(rows, lookup, chat, args).rows
    ensures forall i :: 0 <= i < |args| ==>
      !SubLoop(CmdSub(rows, lookup, chat, args).rows, lookup, chat, args).outcomes[i].Subscribed?
  {
    var once := CmdSub(rows, lookup, chat, args).rows;
    forall i | 0 <= i < |args| && args[i] in lookup
      ensures RowFor(lookup, chat, args[i]) in once
    {
      assert Requested(lookup, chat, args, RowFor(lookup, chat, args[i]));
    }
    SubLoopAllPresent(once, lookup, chat, args);
  }

  /** A chat that already follows the account a name is found as is told so,
      and nothing is added: rows match on the account's id alone. */
  lemma SubMatchesOnKey(rows: seq<Subscription>, lookup: Lookup, chat: ChatId, name: string)
    requires NoDuplicates(rows) && name in lookup && RowFor(lookup, chat, name) in rows
    ensures CmdSub(rows, lookup, chat, [name]).rows == rows
    ensures SubLoop(rows, lookup, chat, [name]).outcomes == [AlreadySubscribed(lookup[name])]
  {
    var args := [name];
    SubLoopAllPresent(rows, lookup, chat, args);
    var outs := SubLoop(rows, lookup, chat, args).outcomes;
    assert outs[0].AlreadySubscribed? && outs[0].user == lookup[name];
  }

  // ---------------------------------------------------------------------
  // /unsub

  datatype UnsubOutcome = NoSubscription(name: string) | Unsubscribed(user: TwUser)

  /** `Subscription.delete().where(...)`: drop every row of `s`'s chat and
      account, and keep every other row, copies and order included. */
  function RemoveRows(rows: seq<Subscription>, s: Subscription): (r: seq<Subscription>)
    ensures forall x :: x in r <==> x in rows && x != s
    ensures multiset(r) == multiset(rows)[s := 0]
    ensures NoDuplicates(rows) ==> NoDuplicates(r)
  {
    if |rows| == 0 then []
    else
      var rest := RemoveRows(rows[1..], s);
      RemoveStepCount(rows, s, rest);
      RemoveStepDistinct(rows, s, rest);
      if rows[0] == s then rest else [rows[0]] + rest
  }

  /** One step of `RemoveRows` keeps the count of every other row. */
  lemma RemoveStepCount(rows: seq<Subscription>, s: Subscription, rest: seq<Subscription>)
    requires |rows| > 0 && multiset(rest) == multiset(rows[1..])[s := 0]
    ensures multiset(if rows[0] == s then rest else [rows[0]] + rest) == multiset(rows)[s := 0]
  {
    assert rows == [rows[0]] + rows[1..];
    assert multiset(rows) == multiset{rows[0]} + multiset(rows[1..]);
  }

  /** One step of `RemoveRows` keeps a table free of duplicates. */
  lemma RemoveStepDistinct(rows: seq<Subscription>, s: Subscription, rest: seq<Subscription>)
    requires |rows| > 0
    requires forall x :: x in rest ==> x in rows[1..]
    requires NoDuplicates(rows[1..]) ==> NoDuplicates(rest)
    ensures NoDuplicates(rows) ==> NoDuplicates(if rows[0] == s then rest else [rows[0]] + rest)
  {
    if NoDuplicates(rows) {
      assert forall k :: 0 <= k < |rows| - 1 ==> rows[1..][k] == rows[k + 1];
      assert rows[0] !in rows[1..];
      var r := [rows[0]] + rest;
      forall i, j | 0 <= i < j < |r|
        ensures r[i] != r[j]
      {
        if i == 0 {
          assert r[j] == rest[j - 1];
        } else {
          assert r[i] == rest[i - 1] && r[j] == rest[j - 1];
        }
      }
    }
  }

  /** Deleting one chat's rows leaves every other chat's list as it was. */
  lemma {:induction false} RemoveRowsKeepsChat(rows: seq<Subscription>, s: Subscription, c: ChatId)
    requires c != s.chat
    ensures ChatUsers(RemoveRows(rows, s), c) == ChatUsers(rows, c)
    decreases |rows|
  {
    if |rows| > 0 {
      RemoveRowsKeepsChat(rows[1..], s, c);
      if rows[0] != s {
        assert ([rows[0]] + RemoveRows(rows[1..], s))[1..] == RemoveRows(rows[1..], s);
      }
    }
  }

  lemma RemoveRowsKeepsOtherChats(rows: seq<Subscription>, s: Subscription)
    ensures forall c :: c != s.chat ==> ChatUsers(RemoveRows(rows, s), c) == ChatUsers(rows, c)
  {
    forall c | c != s.chat
      ensures ChatUsers(RemoveRows(rows, s), c) == ChatUsers(rows, c)
    {
      RemoveRowsKeepsChat(rows, s, c);
    }
  }

  /** The loop of `cmd_unsub`: an unknown name or an account with no row for
      the chat is not found; otherwise its rows are deleted. */
  function UnsubLoop(rows: seq<Subscription>, lookup: Lookup, chat: ChatId, args: seq<string>)
    : (r: LoopState<UnsubOutcome>)
    ensures |r.outcomes| == |args|
    ensures forall i :: 0 <= i < |args| && r.outcomes[i].NoSubscription? ==> r.outcomes[i].name == args[i]
    ensures forall i :: 0 <= i < |args| && r.outcomes[i].Unsubscribed? ==>
      args[i] in lookup && r.outcomes[i].user == lookup[args[i]]
    ensures forall s :: s in r.rows <==> s in rows && !Requested(lookup, chat, args, s)
    ensures forall c :: c != chat ==> ChatUsers(r.rows, c) == ChatUsers(rows, c)
    ensures NoDuplicates(rows) ==> NoDuplicates(r.rows)
    decreases |args|
  {
    if |args| == 0 then LoopState(rows, [])
    else
      var init := args[..|args| - 1];
      var name := args[|args| - 1];
      var prev := UnsubLoop(rows, lookup, chat, init);
      RequestedSnoc(lookup, chat, args);
      if name !in lookup then
        LoopState(prev.rows, prev.outcomes + [NoSubscription(name)])
      else
        var p := RowFor(lookup, chat, name);
        if Count(prev.rows, p) == 0 then LoopState(prev.rows, prev.outcomes + [NoSubscription(name)])
        else
          RemoveRowsKeepsOtherChats(prev.rows, p);
          LoopState(RemoveRows(prev.rows, p), prev.outcomes + [Unsubscribed(lookup[name])])
  }

  /** A found account is unsubscribed exactly when the chat had it and no
      earlier argument already removed it. */
  lemma {:induction false} UnsubLoopOutcomes(rows: seq<Subscription>, lookup: Lookup, chat: ChatId, args: seq<string>)
    ensures forall i :: 0 <= i < |args| ==>
      (UnsubLoop(rows, lookup, chat, args).outcomes[i].Unsubscribed? <==>
        args[i] in lookup && RowFor(lookup, chat, args[i]) in rows && !NamedEarlier(lookup, args, i))
    decreases |args|
  {
    if |args| > 0 {
      var init := args[..|args| - 1];
      var n := |args| - 1;
      var name := args[n];
      UnsubLoopOutcomes(rows, lookup, chat, init);
      var prev := UnsubLoop(rows, lookup, chat, init);
      var r := UnsubLoop(rows, lookup, chat, args);
      assert forall i :: 0 <= i < |init| ==> args[i] == init[i];
      assert r.outcomes[..n] == prev.outcomes;
      NamedEarlierInit(lookup, args);
      if name in lookup {
        LastRequestedEarlier(lookup, chat, args);
        var p := RowFor(lookup, chat, name);
        assert p in prev.rows <==> p in rows && !NamedEarlier(lookup, args, n);
      }
    }
  }

  /** An account the chat follows is unsubscribed by any name it is found as,
      and its row is gone. */
  lemma UnsubMatchesOnKey(rows: seq<Subscription>, lookup: Lookup, chat: ChatId, name: string)
    requires name in lookup && RowFor(lookup, chat, name) in rows
    ensures RowFor(lookup, chat, name) !in CmdUnsub(rows, lookup, chat, [name]).rows
    ensures UnsubLoop(rows, lookup, chat, [name]).outcomes == [Unsubscribed(lookup[name])]
  {
    var args := [name];
    assert args[0] == name;
    assert Requested(lookup, chat, args, RowFor(lookup, chat, name));
    UnsubLoopOutcomes(rows, lookup, chat, args);
  }

  function NoSubscriptionNames(outs: seq<UnsubOutcome>): seq<string>
  {
    if |outs| == 0 then []
    else (if outs[0].NoSubscription? then [outs[0].name] else []) + NoSubscriptionNames(outs[1..])
  }

  function UnsubscribedNames(outs: seq<UnsubOutcome>): seq<string>
  {
    if |outs| == 0 then []
    else (if outs[0].Unsubscribed? then [outs[0].user.fullName] else []) + UnsubscribedNames(outs[1..])
  }

  lemma {:induction false} UnsubBucketsPartition(outs: seq<UnsubOutcome>)
    ensures |NoSubscriptionNames(outs)| + |UnsubscribedNames(outs)| == |outs|
    decreases |outs|
  {
    if |outs| > 0 {
      UnsubBucketsPartition(outs[1..]);
    }
  }

  lemma {:induction false} UnsubBucketsContain(outs: seq<UnsubOutcome>, i: nat)
    requires i < |outs|
    ensures outs[i].NoSubscription? ==> outs[i].name in NoSubscriptionNames(outs)
    ensures outs[i].Unsubscribed? ==> outs[i].user.fullName in UnsubscribedNames(outs)
    decreases |outs|
  {
    if i > 0 {
      UnsubBucketsContain(outs[1..], i - 1);
    }
  }

  function NoSubscriptionSection(names: seq<string>): string
  {
    if |names| == 0 then "" else "I didn't find any subscription to " + Join(", ", names) + "\n\n"
  }

  function UnsubscribedSection(names: seq<string>): string
  {
    if |names| == 0 then "" else "You are no longer subscribed to " + Join(", ", names)
  }

  /** A section of the `/unsub` reply is present exactly when its bucket is not empty. */
  lemma UnsubSectionsShape(nf: seq<string>, un: seq<string>)
    ensures NoSubscriptionSection(nf) == "" <==> nf == []
    ensures UnsubscribedSection(un) == "" <==> un == []
  {
  }

  /** The `/unsub` reply: the not-found section, then the unsubscribed one. */
  function UnsubReply(outs: seq<UnsubOutcome>): string
  {
    NoSubscriptionSection(NoSubscriptionNames(outs)) + UnsubscribedSection(UnsubscribedNames(outs))
  }

  lemma UnsubReplyMentions(outs: seq<UnsubOutcome>, i: nat)
    requires i < |outs|
    ensures Occurs(UnsubReply(outs), if outs[i].NoSubscription? then outs[i].name else outs[i].user.fullName)
  {
    UnsubBucketsContain(outs, i);
    var nf := NoSubscriptionNames(outs);
    var un := UnsubscribedNames(outs);
    var a := NoSubscriptionSection(nf);
    var b := UnsubscribedSection(un);
    if outs[i].NoSubscription? {
      var k :| 0 <= k < |nf| && nf[k] == outs[i].name;
      JoinContains(", ", nf, k);
      OccursInSuffix("I didn't find any subscription to ", Join(", ", nf), nf[k]);
      OccursInPrefix("I didn't find any subscription to " + Join(", ", nf), "\n\n", nf[k]);
      OccursInPrefix(a, b, nf[k]);
    } else {
      var k :| 0 <= k < |un| && un[k] == outs[i].user.fullName;
      JoinContains(", ", un, k);
      OccursInSuffix("You are no longer subscribed to ", Join(", ", un), un[k]);
      OccursInSuffix(a, b, un[k]);
    }
  }

  /** `cmd_unsub`. */
  function CmdUnsub(rows: seq<Subscription>, lookup: Lookup, chat: ChatId, args: seq<string>): (r: CommandResult)
    ensures |args| == 0 ==> r == CommandResult(rows, UnsubUsage)
    ensures |args| > 0 ==> |r.reply| > 0
    ensures forall s :: s in r.rows <==> s in rows && !Requested(lookup, chat, args, s)
    ensures forall c :: c != chat ==> ChatUsers(r.rows, c) == ChatUsers(rows, c)
    ensures NoDuplicates(rows) ==> NoDuplicates(r.rows)
  {
    if |args| == 0 then CommandResult(rows, UnsubUsage)
    else
      var LoopState(rows', outs) := UnsubLoop(rows, lookup, chat, args);
      UnsubBucketsPartition(outs);
      CommandResult(rows', UnsubReply(outs))
  }

  /** The `/unsub` reply names every argument. */
  lemma UnsubReplyNamesEveryArgument(rows: seq<Subscription>, lookup: Lookup, chat: ChatId, args: seq<string>, i: nat)
    requires i < |args|
    ensures Occurs(CmdUnsub(rows, lookup, chat, args).reply,
                   if UnsubLoop(rows, lookup, chat, args).outcomes[i].Unsubscribed? then lookup[args[i]].fullName else args[i])
  {
    UnsubReplyMentions(UnsubLoop(rows, lookup, chat, args).outcomes, i);
  }

  // ---------------------------------------------------------------------
  // /list

  /** Every account a row refers to is in the account table, as the
      table's foreign key guarantees. */
  predicate RowsResolve(rows: seq<Subscription>, accounts: Accounts) {
    forall s :: s in rows ==> s.userId in accounts
  }

  /** `sub.tw_user.full_name` for each id: the name is read through the key. */
  function FullNames(accounts: Accounts, users: seq<UserId>): (names: seq<string>)
    requires forall i :: 0 <= i < |users| ==> users[i] in accounts
    ensures |names| == |users|
    ensures forall i :: 0 <= i < |users| ==> names[i] == accounts[users[i]].fullName
  {
    if |users| == 0 then [] else [accounts[users[0]].fullName] + FullNames(accounts, users[1..])
  }

  /** Each name on a line of its own, as a bullet. */
  function Bullets(names: seq<string>): string
  {
    if |names| == 0 then "" else "\n - " + names[0] + Bullets(names[1..])
  }

  function Subject(chat: Chat): string
  {
    if chat.isGroup then "This group is" else "You are"
  }

  /** `cmd_list`: the table is only read. The reply is the fixed text for a
      chat without subscriptions; otherwise subject, header, one bullet per
      account in row order under the name the account table holds, trailer. */
  function CmdList(rows: seq<Subscription>, accounts: Accounts, chat: Chat): (r: CommandResult)
    requires RowsResolve(rows, accounts)
    ensures r.rows == rows
    ensures ChatUsers(rows, chat.chatId) == [] ==> r.reply == NoSubscriptionsText
    ensures ChatUsers(rows, chat.chatId) != [] ==>
      r.reply ==
        (if chat.isGroup then "This group is" else "You are")
        + " subscribed to the following Twitter users:\n"
        + Bullets(FullNames(accounts, ChatUsers(rows, chat.chatId)))
        + "\n\nYou can remove any of them using /unsub username"
  {
    var users := ChatUsers(rows, chat.chatId);
    if |users| == 0 then CommandResult(rows, NoSubscriptionsText)
    else
      JoinIsBullets(FullNames(accounts, users));
      CommandResult(rows,
        Subject(chat) + " subscribed to the following Twitter users:\n"
        + Join("\n - ", [""] + FullNames(accounts, users))
        + "\n\nYou can remove any of them using /unsub username")
  }

  /** Joining after a leading empty element puts the separator before every name. */
  lemma {:induction false} JoinAfterEmpty(sep: string, head: string, names: seq<string>)
    ensures Join(sep, [head] + names) == head + Join(sep, [""] + names)
    decreases |names|
  {
    if |names| > 0 {
      assert ([head] + names)[1..] == names;
      assert ([""] + names)[1..] == names;
    }
  }

  lemma {:induction false} JoinIsBullets(names: seq<string>)
    ensures Join("\n - ", [""] + names) == Bullets(names)
    decreases |names|
  {
    if |names| > 0 {
      assert ([""] + names)[1..] == names;
      assert names == [names[0]] + names[1..];
      JoinAfterEmpty("\n - ", names[0], names[1..]);
      JoinIsBullets(names[1..]);
    }
  }

  lemma {:induction false} BulletsContain(names: seq<string>, k: nat)
    requires k < |names|
    ensures Occurs(Bullets(names), "\n - " + names[k])
    decreases |names|
  {
    if k == 0 {
      assert Bullets(names) == ("\n - " + names[0]) + Bullets(names[1..]);
      assert OccursAt(Bullets(names), "\n - " + names[0], 0);
    } else {
      BulletsContain(names[1..], k - 1);
      assert Bullets(names) == ("\n - " + names[0]) + Bullets(names[1..]);
      OccursInSuffix("\n - " + names[0], Bullets(names[1..]), "\n - " + names[k]);
    }
  }

  /** Every account the chat follows is listed as a bullet, under the name
      the account table holds for it now. */
  lemma ListMentionsEverySubscription(rows: seq<Subscription>, accounts: Accounts, chat: Chat, u: UserId)
    requires RowsResolve(rows, accounts)
    requires Subscription(chat.chatId, u) in rows
    ensures Occurs(CmdList(rows, accounts, chat).reply, "\n - " + accounts[u].fullName)
  {
    var users := ChatUsers(rows, chat.chatId);
    var k :| 0 <= k < |users| && users[k] == u;
    var names := FullNames(accounts, users);
    BulletsContain(names, k);
    var head := Subject(chat) + " subscribed to the following Twitter users:\n";
    OccursInSuffix(head, Bullets(names), "\n - " + accounts[u].fullName);
    OccursInPrefix(head + Bullets(names), "\n\nYou can remove any of them using /unsub username",
                   "\n - " + accounts[u].fullName);
  }
}

=== FILE: decimal.dfy ===
/** Python's `str(n)` for integers, and its inverse, used for the stream
    filter's account-id strings. */
module Decimal {
  import opened Wrappers

  predicate IsDigit(c: char) {
    '0' <= c <= '9'
  }

  predicate AllDigits(s: string) {
    forall i :: 0 <= i < |s| ==> IsDigit(s[i])
  }

  function DigitChar(d: nat): (c: char)
    requires d < 10
    ensures IsDigit(c)
  {
    "0123456789"[d]
  }

  function DigitValue(c: char): (d: nat)
    requires IsDigit(c)
    ensures d < 10
  {
    (c as int - '0' as int) as nat
  }

  /** Decimal digits of `n`, most significant first, no leading zero. */
  function NatToStr(n: nat): (s: string)
    ensures |s| > 0 && AllDigits(s)
    ensures |s| == 1 || s[0] != '0'
  {
    if n < 10 then [DigitChar(n)] else NatToStr(n / 10) + [DigitChar(n % 10)]
  }

  function Abs(i: int): nat
  {
    if i < 0 then -i else i
  }

  /** `str(i)`: a minus sign for negative values, then the digits of `|i|`. */
  function IntToStr(i: int): string
  {
    (if i < 0 then "-" else "") + NatToStr(Abs(i))
  }

  function DigitsValue(s: string): nat
    requires AllDigits(s)
  {
    if |s| == 0 then 0 else DigitsValue(s[..|s| - 1]) * 10 + DigitValue(s[|s| - 1])
  }

  /** `int(s)` restricted to an optional minus sign followed by digits. */
  function ParseInt(s: string): Option<int>
  {
    if |s| > 1 && s[0] == '-' && AllDigits(s[1..]) then Some(-(DigitsValue(s[1..]) as int))
    else if |s| > 0 && AllDigits(s) then Some(DigitsValue(s))
    else None
  }

  lemma DigitRoundTrip(d: nat)
    requires d < 10
    ensures DigitValue(DigitChar(d)) == d
  {
  }

  lemma {:induction false} DigitsValueNatToStr(n: nat)
    ensures DigitsValue(NatToStr(n)) == n
  {
    DigitRoundTrip(n % 10);
    if n >= 10 {
      var s := NatToStr(n);
      DigitsValueNatToStr(n / 10);
      assert s[..|s| - 1] == NatToStr(n / 10);
    }
  }

  /** `str` loses nothing: parsing its output gives the number back. */
  lemma ParseIntToStr(i: int)
    ensures ParseInt(IntToStr(i)) == Some(i)
  {
    var d := NatToStr(Abs(i));
    DigitsValueNatToStr(Abs(i));
    if i < 0 {
      ParseMinusDigits(IntToStr(i), d, Abs(i));
    } else {
      assert IntToStr(i) == d;
      ParseDigits(d);
    }
  }

  /** A string of digits with no sign parses as its value. */
  lemma ParseDigits(d: string)
    requires |d| > 0 && AllDigits(d)
    ensures ParseInt(d) == Some(DigitsValue(d) as int)
  {
    assert IsDigit(d[0]);
  }

  /** A minus sign followed by the digits of `n` parses as `-n`. */
  lemma ParseMinusDigits(s: string, d: string, n: nat)
    requires s == "-" + d
    requires |d| > 0 && AllDigits(d)
    requires DigitsValue(d) == n
    ensures ParseInt(s) == Some(-(n as int))
  {
    assert s[1..] == d;
  }

  /** Distinct numbers have distinct decimal strings. */
  lemma IntToStrInjective(a: int, b: int)
    requires IntToStr(a) == IntToStr(b)
    ensures a == b
  {
    ParseIntToStr(a);
    ParseIntToStr(b);
  }
}

=== FILE: html.dfy ===
/** HTML character references as they appear in tweet text. The provider
    escapes `&`, `<` and `>`; the bot decodes them with `html.unescape`.
    Only the named references `&amp;`, `&lt;`, `&gt;`, `&quot;` and the
    numeric `&#39;` are decoded here. */
module Html {
  import opened Text

  /** Decode character references left to right in a single pass. */
  function Unescape(s: string): (r: string)
    ensures |r| <= |s|
    decreases |s|
  {
    if |s| == 0 then ""
    else if StartsWith(s, "&amp;") then "&" + Unescape(s[5..])
    else if StartsWith(s, "&lt;") then "<" + Unescape(s[4..])
    else if StartsWith(s, "&gt;") then ">" + Unescape(s[4..])
    else if StartsWith(s, "&quot;") then "\"" + Unescape(s[6..])
    else if StartsWith(s, "&#39;") then "'" + Unescape(s[5..])
    else [s[0]] + Unescape(s[1..])
  }

  function EscapeChar(c: char): string
  {
    if c == '&' then "&amp;"
    else if c == '<' then "&lt;"
    else if c == '>' then "&gt;"
    else [c]
  }

  /** The provider's escaping of tweet text. */
  function Escape(s: string): string
  {
    if |s| == 0 then "" else EscapeChar(s[0]) + Escape(s[1..])
  }

  /** A character other than `&` never starts a reference and is copied. */
  lemma UnescapeOrdinary(s: string)
    requires |s| > 0 && s[0] != '&'
    ensures Unescape(s) == [s[0]] + Unescape(s[1..])
  {
    assert !StartsWith(s, "&amp;") && !StartsWith(s, "&lt;") && !StartsWith(s, "&gt;")
      by { assert s[..1] == [s[0]]; }
    assert !StartsWith(s, "&quot;") && !StartsWith(s, "&#39;")
      by { assert s[..1] == [s[0]]; }
  }

  lemma UnescapeAfterEscapedChar(c: char, rest: string)
    ensures Unescape(EscapeChar(c) + rest) == [c] + Unescape(rest)
  {
    var e := EscapeChar(c) + rest;
    if c == '&' {
      assert StartsWith(e, "&amp;");
      assert e[5..] == rest;
    } else if c == '<' {
      assert e[..4] == "&lt;";
      assert !StartsWith(e, "&amp;") by { assert e[1] == 'l'; }
      assert e[4..] == rest;
    } else if c == '>' {
      assert e[..4] == "&gt;";
      assert !StartsWith(e, "&amp;") by { assert e[1] == 'g'; }
      assert !StartsWith(e, "&lt;") by { assert e[1] == 'g'; }
      assert e[4..] == rest;
    } else {
      UnescapeOrdinary(e);
      assert e[1..] == rest;
    }
  }

  /** Decoding undoes the provider's escaping. */
  lemma {:induction false} UnescapeEscape(s: string)
    ensures Unescape(Escape(s)) == s
    decreases |s|
  {
    if |s| > 0 {
      UnescapeAfterEscapedChar(s[0], Escape(s[1..]));
      UnescapeEscape(s[1..]);
      assert s == [s[0]] + s[1..];
    }
  }

  /** Text without an ampersand is left alone. */
  lemma {:induction false} UnescapePlain(s: string)
    requires forall i :: 0 <= i < |s| ==> s[i] != '&'
    ensures Unescape(s) == s
    decreases |s|
  {
    if |s| > 0 {
      UnescapeOrdinary(s);
      UnescapePlain(s[1..]);
      assert s == [s[0]] + s[1..];
    }
  }
}

=== FILE: normalizer.dfy ===
/** `parse_tweet` and `parse_tweet_media`: a decoded status becomes a tweet
    record through a fixed pipeline of text rewrites. */
module Normalizer {
  import opened Wrappers
  import opened Text
  import opened Html
  import opened Tweets

  /** U+267B, the recycling symbol that marks shared text. */
  const Recycle: char := '\U{267B}'

  /** The line that stands for a retweeted or quoted status. */
  function ShareLine(s: RawTweet): string
  {
    [Recycle] + " @" + s.user.screenName + ": " + Unescape(s.text)
  }

  // ---------------------------------------------------------------------
  // The trailing quote link, `re.sub(r' https://t\.co/[1-9a-zA-Z]+$', '', s)`

  const LinkPrefix: string := " https://t.co/"

  /** The regular expression's class `[1-9a-zA-Z]`; note it has no `0`. */
  predicate IsLinkIdChar(c: char) {
    ('1' <= c <= '9') || ('a' <= c <= 'z') || ('A' <= c <= 'Z')
  }

  predicate IsLinkId(x: string) {
    |x| > 0 && forall i :: 0 <= i < |x| ==> IsLinkIdChar(x[i])
  }

  /** `u` matches the pattern from its first to its last character. */
  predicate IsShortLink(u: string) {
    |u| > |LinkPrefix| && u[..|LinkPrefix|] == LinkPrefix && IsLinkId(u[|LinkPrefix|..])
  }

  predicate HasTrailingLink(s: string) {
    exists i :: 0 <= i <= |s| && IsShortLink(s[i..])
  }

  /** Length of the longest suffix of `s` made of link-id characters. */
  function TrailingIdRun(s: string): (k: nat)
    ensures k <= |s|
    ensures forall i :: |s| - k <= i < |s| ==> IsLinkIdChar(s[i])
    ensures k < |s| ==> !IsLinkIdChar(s[|s| - k - 1])
  {
    if |s| == 0 || !IsLinkIdChar(s[|s| - 1]) then 0
    else TrailingIdRun(s[..|s| - 1]) + 1
  }

  /** A link that ends `s` is delimited by the run of id characters before the end. */
  lemma ShortLinkIsTrailingRun(s: string, i: nat)
    requires i <= |s| && IsShortLink(s[i..])
    ensures TrailingIdRun(s) == |s| - i - |LinkPrefix|
  {
    var n := |LinkPrefix|;
    var u := s[i..];
    assert s[i + n - 1] == u[n - 1] == '/';
    LinkIdTail(s, i);
    TrailingIdRunExact(s, |s| - i - n);
  }

  /** A run of id characters preceded by a non-id character, or by nothing,
      is the trailing run. */
  lemma {:induction false} TrailingIdRunExact(s: string, m: nat)
    requires m <= |s|
    requires forall j :: |s| - m <= j < |s| ==> IsLinkIdChar(s[j])
    requires m < |s| ==> !IsLinkIdChar(s[|s| - m - 1])
    ensures TrailingIdRun(s) == m
    decreases m
  {
    if m > 0 {
      var init := s[..|s| - 1];
      assert IsLinkIdChar(s[|s| - 1]);
      assert forall j :: |init| - (m - 1) <= j < |init| ==> init[j] == s[j];
      TrailingIdRunExact(init, m - 1);
    }
  }

  /** The characters after a link's prefix are link-id characters. */
  lemma LinkIdTail(s: string, i: nat)
    requires i <= |s| && IsShortLink(s[i..])
    ensures forall j :: i + |LinkPrefix| <= j < |s| ==> IsLinkIdChar(s[j])
  {
    var n := |LinkPrefix|;
    forall j | i + n <= j < |s|
      ensures IsLinkIdChar(s[j])
    {
      assert s[j] == s[i..][n..][j - i - n];
    }
  }

  /** Every link that ends `s` starts where the run-based test looks for one. */
  lemma ShortLinksAtRun(s: string)
    ensures forall j :: 0 <= j <= |s| && IsShortLink(s[j..]) ==>
      var k := TrailingIdRun(s);
      && 0 < k && |LinkPrefix| <= |s| - k && j == |s| - k - |LinkPrefix|
      && s[|s| - k - |LinkPrefix|..|s| - k] == LinkPrefix
  {
    forall j | 0 <= j <= |s| && IsShortLink(s[j..])
      ensures s[j..j + |LinkPrefix|] == LinkPrefix
      ensures TrailingIdRun(s) == |s| - j - |LinkPrefix|
    {
      ShortLinkIsTrailingRun(s, j);
      assert s[j..][..|LinkPrefix|] == s[j..j + |LinkPrefix|];
    }
  }

  /** The run-based test finds a link. */
  lemma RunIsShortLink(s: string, k: nat)
    requires k <= |s| && forall i :: |s| - k <= i < |s| ==> IsLinkIdChar(s[i])
    requires 0 < k && |LinkPrefix| <= |s| - k && s[|s| - k - |LinkPrefix|..|s| - k] == LinkPrefix
    ensures IsShortLink(s[|s| - k - |LinkPrefix|..])
  {
    var n := |LinkPrefix|;
    var i := |s| - k - n;
    var u := s[i..];
    var id := s[|s| - k..];
    assert u[..n] == s[i..|s| - k];
    assert u[n..] == id;
    assert IsLinkId(id) by {
      forall j | 0 <= j < k
        ensures IsLinkIdChar(id[j])
      {
        assert id[j] == s[|s| - k + j];
      }
    }
  }

  /** Where the trailing link of `s` starts, if `s` ends with one. */
  function TrailingLinkStart(s: string): (r: Option<nat>)
    ensures r.Some? ==> r.value <= |s| && IsShortLink(s[r.value..])
    ensures forall i :: 0 <= i <= |s| && IsShortLink(s[i..]) ==> r == Some(i)
  {
    var k := TrailingIdRun(s);
    var n := |LinkPrefix|;
    ShortLinksAtRun(s);
    if 0 < k && n <= |s| - k && s[|s| - k - n..|s| - k] == LinkPrefix then
      RunIsShortLink(s, k);
      Some(|s| - k - n)
    else
      None
  }

  /** The substitution: drop a trailing link at the end of `s`, or just before
      a final newline, where `$` also matches. */
  function StripTrailingLink(s: string): (r: string)
    ensures |r| <= |s|
  {
    match TrailingLinkStart(s)
    case Some(i) => s[..i]
    case None =>
      if |s| > 0 && s[|s| - 1] == '\n' then
        match TrailingLinkStart(s[..|s| - 1])
        case Some(i) => s[..i] + "\n"
        case None => s
      else s
  }

  lemma LinkAfter(p: string, id: string)
    requires IsLinkId(id)
    ensures IsShortLink((p + LinkPrefix + id)[|p|..])
  {
    var u := (p + LinkPrefix + id)[|p|..];
    assert u == LinkPrefix + id;
    assert u[|LinkPrefix|..] == id;
  }

  /** A text ending in a short link loses exactly that link. */
  lemma StripRemovesLink(p: string, id: string)
    requires IsLinkId(id)
    ensures StripTrailingLink(p + LinkPrefix + id) == p
  {
    LinkAfter(p, id);
    assert (p + LinkPrefix + id)[..|p|] == p;
  }

  /** `$` also matches before a final newline, which is kept. */
  lemma StripRemovesLinkBeforeNewline(p: string, id: string)
    requires IsLinkId(id)
    ensures StripTrailingLink(p + LinkPrefix + id + "\n") == p + "\n"
  {
    var s := p + LinkPrefix + id + "\n";
    assert s[..|s| - 1] == p + LinkPrefix + id;
    LinkAfter(p, id);
    assert s[..|p|] == p;
  }

  /** A text without a trailing link is left unchanged. */
  lemma StripKeepsUnlinked(s: string)
    requires !HasTrailingLink(s)
    requires |s| > 0 && s[|s| - 1] == '\n' ==> !HasTrailingLink(s[..|s| - 1])
    ensures StripTrailingLink(s) == s
  {
  }

  // ---------------------------------------------------------------------
  // Media: `parse_tweet_media`

  predicate HasBitrate(vs: seq<VideoVariant>) {
    exists j :: 0 <= j < |vs| && vs[j].bitrate.Some?
  }

  /** `vs[k]` is what `max(..., key=bitrate)` picks among the variants that
      declare a bitrate: a largest one, and the first of the largest. */
  predicate IsBestVariant(vs: seq<VideoVariant>, k: int) {
    && 0 <= k < |vs|
    && vs[k].bitrate.Some?
    && (forall j :: 0 <= j < |vs| && vs[j].bitrate.Some? ==> vs[j].bitrate.value <= vs[k].bitrate.value)
    && (forall j :: 0 <= j < k && vs[j].bitrate.Some? ==> vs[j].bitrate.value < vs[k].bitrate.value)
  }

  /** The index of the chosen video variant, `None` where `max` raises. */
  function BestVariant(vs: seq<VideoVariant>): (r: Option<nat>)
    ensures r.None? <==> !HasBitrate(vs)
    ensures r.Some? ==> IsBestVariant(vs, r.value)
  {
    if |vs| == 0 then None
    else
      var prev := BestVariant(vs[..|vs| - 1]);
      var last := vs[|vs| - 1];
      assert forall j :: 0 <= j < |vs| - 1 ==> vs[..|vs| - 1][j] == vs[j];
      if last.bitrate.None? then prev
      else if prev.None? || vs[prev.value].bitrate.value < last.bitrate.value then Some(|vs| - 1)
      else prev
  }

  /** At most one variant is the best one. */
  lemma BestVariantUnique(vs: seq<VideoVariant>, a: int, b: int)
    requires IsBestVariant(vs, a) && IsBestVariant(vs, b)
    ensures a == b
  {
  }

  /** The media item one entity contributes. */
  function MediaOf(e: MediaEntity): (r: Result<Media, ParseError>)
    ensures e.videoInfo.None? ==> r == Success(Media(Photo, e.mediaUrlHttps))
    ensures e.videoInfo.Some? ==> (r.Success? <==> HasBitrate(e.videoInfo.value.variants))
    ensures e.videoInfo.Some? && r.Success? ==>
      r.value.kind == Video &&
      exists k :: IsBestVariant(e.videoInfo.value.variants, k) && r.value.url == e.videoInfo.value.variants[k].url
  {
    match e.videoInfo
    case None => Success(Media(Photo, e.mediaUrlHttps))
    case Some(info) =>
      match BestVariant(info.variants)
      case None => Failure(NoBitrateVariant(e.url))
      case Some(k) => Success(Media(Video, info.variants[k].url))
  }

  predicate AllMediaOk(media: seq<MediaEntity>) {
    forall i :: 0 <= i < |media| ==> MediaOf(media[i]).Success?
  }

  /** For each entity in order: delete its short link from the text, then
      append its media item; stop at the first entity that fails. */
  function ParseTweetMedia(t: Tweet, media: seq<MediaEntity>): (r: Result<Tweet, ParseError>)
    ensures r.Success? <==> AllMediaOk(media)
    ensures r.Success? ==>
      && r.value.id == t.id && r.value.createdAt == t.createdAt
      && r.value.userName == t.userName && r.value.userScreenName == t.userScreenName
      && r.value.linkUrl == t.linkUrl
      && |r.value.mediaList| == |t.mediaList| + |media|
      && r.value.mediaList[..|t.mediaList|] == t.mediaList
      && forall i :: 0 <= i < |media| ==> r.value.mediaList[|t.mediaList| + i] == MediaOf(media[i]).value
    decreases |media|
  {
    if |media| == 0 then Success(t)
    else
      var e := media[0];
      var text := ReplaceAll(t.text, e.url, "");
      match MediaOf(e)
      case Failure(err) => Failure(err)
      case Success(m) =>
        var r := ParseTweetMedia(t.(text := text, mediaList := t.mediaList + [m]), media[1..]);
        assert forall i :: 1 <= i < |media| ==> media[i] == media[1..][i - 1];
        r
  }

  /** Media whose short links are absent from the text leave the text alone. */
  lemma {:induction false} MediaLinksAbsentKeepText(t: Tweet, media: seq<MediaEntity>)
    requires AllMediaOk(media)
    requires forall i :: 0 <= i < |media| ==> |media[i].url| > 0 && !Occurs(t.text, media[i].url)
    ensures ParseTweetMedia(t, media).value.text == t.text
    decreases |media|
  {
    if |media| > 0 {
      ReplaceAbsent(t.text, media[0].url, "");
      var m := MediaOf(media[0]).value;
      assert forall i :: 0 <= i < |media| - 1 ==> media[1..][i] == media[i + 1];
      MediaLinksAbsentKeepText(t.(mediaList := t.mediaList + [m]), media[1..]);
    }
  }

  /** Deleting every occurrence of a media link: the text cut at the link's
      occurrences and glued back together; an empty link deletes nothing. */
  function RemoveLink(s: string, url: string): string
  {
    if |url| == 0 then s else Join("", Split(s, url))
  }

  /** The text after the media links of `media` are deleted in turn. */
  function RemoveLinks(s: string, media: seq<MediaEntity>): string
    decreases |media|
  {
    if |media| == 0 then s else RemoveLinks(RemoveLink(s, media[0].url), media[1..])
  }

  /** `s.replace(url, "")` deletes exactly the occurrences of `url`. */
  lemma ReplaceRemovesLink(s: string, url: string)
    ensures ReplaceAll(s, url, "") == RemoveLink(s, url)
  {
    if |url| == 0 {
      InterleaveEmpty(s);
    } else {
      ReplaceIsJoinOfSplit(s, url, "");
    }
  }

  /** One media entity deletes every occurrence of its short link. */
  lemma OneMediaText(t: Tweet, e: MediaEntity)
    requires MediaOf(e).Success?
    ensures ParseTweetMedia(t, [e]).value.text == RemoveLink(t.text, e.url)
  {
    ReplaceRemovesLink(t.text, e.url);
    assert [e][1..] == [];
  }

  /** The media step's text: each entity's short link deleted in turn. */
  lemma {:induction false} ParseTweetMediaText(t: Tweet, media: seq<MediaEntity>)
    requires AllMediaOk(media)
    ensures ParseTweetMedia(t, media).value.text == RemoveLinks(t.text, media)
    decreases |media|
  {
    if |media| > 0 {
      ReplaceRemovesLink(t.text, media[0].url);
      var m := MediaOf(media[0]).value;
      assert forall i :: 0 <= i < |media| - 1 ==> media[1..][i] == media[i + 1];
      ParseTweetMediaText(t.(text := RemoveLink(t.text, media[0].url), mediaList := t.mediaList + [m]), media[1..]);
    }
  }

  // ---------------------------------------------------------------------
  // Links

  /** The text the provider showed for a URL entity, sliced from the raw text. */
  function DisplayText(raw: string, u: UrlEntity): string
    requires |u.indices| >= 2
  {
    PySlice(raw, u.indices[0], u.indices[1])
  }

  predicate AllIndexed(urls: seq<UrlEntity>) {
    forall i :: 0 <= i < |urls| ==> |urls[i].indices| >= 2
  }

  /** Each URL entity in turn replaces every occurrence of its display text
      in the current text by its expanded form. */
  function ExpandUrls(text: string, raw: string, urls: seq<UrlEntity>): (r: Result<string, ParseError>)
    ensures r.Success? <==> AllIndexed(urls)
    decreases |urls|
  {
    if |urls| == 0 then Success(text)
    else if |urls[0].indices| < 2 then Failure(MissingIndices(urls[0].url))
    else
      assert forall i :: 1 <= i < |urls| ==> urls[i] == urls[1..][i - 1];
      ExpandUrls(ReplaceAll(text, DisplayText(raw, urls[0]), urls[0].expandedUrl), raw, urls[1..])
  }

  /** Expansion is a no-op for entities whose display text is absent. */
  lemma {:induction false} ExpandUrlsAbsent(text: string, raw: string, urls: seq<UrlEntity>)
    requires AllIndexed(urls)
    requires forall i :: 0 <= i < |urls| ==>
      |DisplayText(raw, urls[i])| > 0 && !Occurs(text, DisplayText(raw, urls[i]))
    ensures ExpandUrls(text, raw, urls) == Success(text)
    decreases |urls|
  {
    if |urls| > 0 {
      ReplaceAbsent(text, DisplayText(raw, urls[0]), urls[0].expandedUrl);
      assert forall i :: 0 <= i < |urls| - 1 ==> urls[1..][i] == urls[i + 1];
      ExpandUrlsAbsent(text, raw, urls[1..]);
    }
  }

  /** A single entity's expansion: cut the text at its display text and glue
      the pieces with the expanded URL. */
  lemma ExpandOneUrl(text: string, raw: string, u: UrlEntity)
    requires |u.indices| >= 2 && |DisplayText(raw, u)| > 0
    ensures ExpandUrls(text, raw, [u]) ==
      Success(Join(u.expandedUrl, Split(text, DisplayText(raw, u))))
  {
    ReplaceIsJoinOfSplit(text, DisplayText(raw, u), u.expandedUrl);
    assert [u][1..] == [];
  }

  // ---------------------------------------------------------------------
  // The whole pipeline: `parse_tweet`

  /** The quoted status's media entities, when there is a quoted status. */
  function QuotedMedia(tw: RawTweet): seq<MediaEntity>
  {
    if tw.quotedStatus.Some? && tw.quotedStatus.value.extendedEntities.Some?
    then tw.quotedStatus.value.extendedEntities.value.media else []
  }

  function OwnMedia(tw: RawTweet): seq<MediaEntity>
  {
    if tw.extendedEntities.Some? then tw.extendedEntities.value.media else []
  }

  /** The media entities that are processed, in processing order: those of
      the quoted status (when there is one) before those of the status itself. */
  function SelectedMedia(tw: RawTweet): seq<MediaEntity>
  {
    QuotedMedia(tw) + OwnMedia(tw)
  }

  /** The URL entities left for expansion: a quote clears them. */
  function EffectiveUrls(tw: RawTweet): seq<UrlEntity>
  {
    if tw.quotedStatus.Some? then [] else tw.entities.urls
  }

  function BaseTweet(tw: RawTweet): Tweet
  {
    Tweet(tw.id, Unescape(tw.text), tw.createdAt, tw.user.name, tw.user.screenName, [], None)
  }

  /** Retweet step: no short-circuit, a retweet can still be quoted below. */
  function RetweetStep(t: Tweet, tw: RawTweet): Tweet
  {
    if tw.retweetedStatus.Some? then t.(text := ShareLine(tw.retweetedStatus.value)) else t
  }

  /** Quote step: drop the trailing quote link, append the quoted status,
      then take the quoted status's media. */
  function QuoteStep(t: Tweet, q: RawTweet): Result<Tweet, ParseError>
  {
    var quoted := t.(text := StripTrailingLink(t.text) + "\n" + ShareLine(q));
    if q.extendedEntities.Some? then ParseTweetMedia(quoted, q.extendedEntities.value.media)
    else Success(quoted)
  }

  /** Media of the status itself or, failing that, the first URL as link. */
  function OwnMediaStep(t: Tweet, tw: RawTweet): Result<Tweet, ParseError>
  {
    var urls := EffectiveUrls(tw);
    if tw.extendedEntities.Some? then ParseTweetMedia(t, tw.extendedEntities.value.media)
    else if |urls| > 0 then Success(t.(linkUrl := Some(urls[0].expandedUrl)))
    else Success(t)
  }

  /** The tweet after the retweet and quote steps. */
  function QuotedStage(tw: RawTweet): Result<Tweet, ParseError>
  {
    var shared := RetweetStep(BaseTweet(tw), tw);
    if tw.quotedStatus.Some? then QuoteStep(shared, tw.quotedStatus.value) else Success(shared)
  }

  /** The tweet after the media steps, before URL expansion. */
  function MediaStage(tw: RawTweet): Result<Tweet, ParseError>
  {
    var quoted :- QuotedStage(tw);
    OwnMediaStep(quoted, tw)
  }

  function ParseTweet(tw: RawTweet): (r: Result<Tweet, ParseError>)
    ensures r.Success? ==>
      && r.value.id == tw.id && r.value.createdAt == tw.createdAt
      && r.value.userName == tw.user.name && r.value.userScreenName == tw.user.screenName
  {
    var withMedia :- MediaStage(tw);
    var text :- ExpandUrls(withMedia.text, tw.text, EffectiveUrls(tw));
    Success(withMedia.(text := text))
  }

  // ---------------------------------------------------------------------
  // Properties of the pipeline

  lemma AllMediaOkConcat(a: seq<MediaEntity>, b: seq<MediaEntity>)
    ensures AllMediaOk(a + b) <==> AllMediaOk(a) && AllMediaOk(b)
  {
    if AllMediaOk(a) && AllMediaOk(b) {
      forall i | 0 <= i < |a + b|
        ensures MediaOf((a + b)[i]).Success?
      {
        if i >= |a| {
          assert (a + b)[i] == b[i - |a|];
        }
      }
    }
    if AllMediaOk(a + b) {
      forall i | 0 <= i < |b|
        ensures MediaOf(b[i]).Success?
      {
        assert (a + b)[|a| + i] == b[i];
      }
      forall i | 0 <= i < |a|
        ensures MediaOf(a[i]).Success?
      {
        assert (a + b)[i] == a[i];
      }
    }
  }

  /** A status fails to parse exactly when a processed video has no
      bitrate-bearing variant or a remaining URL entity has fewer than two
      indices. */
  lemma ParseFailsExactly(tw: RawTweet)
    ensures ParseTweet(tw).Failure? <==>
      !AllMediaOk(SelectedMedia(tw)) || !AllIndexed(EffectiveUrls(tw))
  {
    AllMediaOkConcat(QuotedMedia(tw), OwnMedia(tw));
  }

  /** The media list holds exactly the items of `media`, in order. */
  predicate ItemsOf(ml: seq<Media>, media: seq<MediaEntity>)
    requires AllMediaOk(media)
  {
    |ml| == |media| && forall i :: 0 <= i < |media| ==> ml[i] == MediaOf(media[i]).value
  }

  lemma ItemsConcat(a: seq<Media>, b: seq<Media>, ma: seq<MediaEntity>, mb: seq<MediaEntity>)
    requires AllMediaOk(ma) && AllMediaOk(mb) && AllMediaOk(ma + mb)
    requires ItemsOf(a, ma) && ItemsOf(b, mb)
    ensures ItemsOf(a + b, ma + mb)
  {
    forall i | 0 <= i < |ma + mb|
      ensures (a + b)[i] == MediaOf((ma + mb)[i]).value
    {
      if i >= |ma| {
        assert (ma + mb)[i] == mb[i - |ma|];
      }
    }
  }

  /** The quote stage yields exactly the quoted status's media items. */
  lemma QuotedStageItems(tw: RawTweet)
    requires QuotedStage(tw).Success?
    ensures AllMediaOk(QuotedMedia(tw)) && ItemsOf(QuotedStage(tw).value.mediaList, QuotedMedia(tw))
  {
    var shared := RetweetStep(BaseTweet(tw), tw);
    assert shared.mediaList == [];
    if tw.quotedStatus.Some? {
      var q := tw.quotedStatus.value;
      var quoted := shared.(text := StripTrailingLink(shared.text) + "\n" + ShareLine(q));
      if q.extendedEntities.Some? {
        assert QuotedStage(tw) == ParseTweetMedia(quoted, q.extendedEntities.value.media);
      }
    }
  }

  /** What the status's own media step appends. */
  lemma OwnMediaStepItems(t: Tweet, tw: RawTweet)
    requires OwnMediaStep(t, tw).Success?
    ensures AllMediaOk(OwnMedia(tw))
    ensures |OwnMediaStep(t, tw).value.mediaList| == |t.mediaList| + |OwnMedia(tw)|
    ensures OwnMediaStep(t, tw).value.mediaList[..|t.mediaList|] == t.mediaList
    ensures ItemsOf(OwnMediaStep(t, tw).value.mediaList[|t.mediaList|..], OwnMedia(tw))
  {
    var ml := OwnMediaStep(t, tw).value.mediaList;
    if tw.extendedEntities.Some? {
      forall i | 0 <= i < |OwnMedia(tw)|
        ensures ml[|t.mediaList|..][i] == MediaOf(OwnMedia(tw)[i]).value
      {
        assert ml[|t.mediaList|..][i] == ml[|t.mediaList| + i];
      }
    }
  }

  /** URL expansion touches only the text. */
  lemma ParseTweetKeepsMediaStage(tw: RawTweet)
    requires ParseTweet(tw).Success?
    ensures MediaStage(tw).Success?
    ensures ParseTweet(tw).value.mediaList == MediaStage(tw).value.mediaList
    ensures ParseTweet(tw).value.linkUrl == MediaStage(tw).value.linkUrl
  {
  }

  /** The media stage yields the selected media's items, in order. */
  lemma MediaStageItems(tw: RawTweet)
    requires MediaStage(tw).Success?
    ensures AllMediaOk(SelectedMedia(tw)) && ItemsOf(MediaStage(tw).value.mediaList, SelectedMedia(tw))
  {
    var quoted := QuotedStage(tw).value;
    QuotedStageItems(tw);
    OwnMediaStepItems(quoted, tw);
    var ml := OwnMediaStep(quoted, tw).value.mediaList;
    assert ml == quoted.mediaList + ml[|quoted.mediaList|..];
    AllMediaOkConcat(QuotedMedia(tw), OwnMedia(tw));
    ItemsConcat(quoted.mediaList, ml[|quoted.mediaList|..], QuotedMedia(tw), OwnMedia(tw));
  }

  /** One media item per processed entity, in entity order, quoted media first. */
  lemma ParseMediaList(tw: RawTweet)
    requires ParseTweet(tw).Success?
    ensures |ParseTweet(tw).value.mediaList| == |SelectedMedia(tw)|
    ensures forall i :: 0 <= i < |SelectedMedia(tw)| ==>
      ParseTweet(tw).value.mediaList[i] == MediaOf(SelectedMedia(tw)[i]).value
  {
    ParseTweetKeepsMediaStage(tw);
    MediaStageItems(tw);
  }

  lemma ParseLinkUrl(tw: RawTweet)
    requires ParseTweet(tw).Success?
    ensures ParseTweet(tw).value.linkUrl ==
      if tw.quotedStatus.None? && tw.extendedEntities.None? && |tw.entities.urls| > 0
      then Some(tw.entities.urls[0].expandedUrl) else None
  {
  }

  /** A retweet's text is the shared line of the original status. */
  lemma RetweetDiscardsOuterText(tw: RawTweet)
    requires tw.retweetedStatus.Some? && tw.quotedStatus.None?
    requires tw.extendedEntities.None? && tw.entities.urls == []
    ensures ParseTweet(tw) == Success(Tweet(tw.id, ShareLine(tw.retweetedStatus.value), tw.createdAt,
                                            tw.user.name, tw.user.screenName, [], None))
  {
  }

  /** Up to URL expansion a retweet does not depend on its outer text: the
      retweet line replaces it before the quote and media steps see it. */
  lemma RetweetMediaStageIgnoresOuterText(tw: RawTweet, text: string)
    requires tw.retweetedStatus.Some?
    ensures MediaStage(tw.(text := text)) == MediaStage(tw)
  {
  }

  /** ... and a retweet with no URL entities left to expand does not depend
      on it at all, whether or not it quotes or carries media. */
  lemma RetweetIgnoresOuterText(tw: RawTweet, text: string)
    requires tw.retweetedStatus.Some? && EffectiveUrls(tw) == []
    ensures ParseTweet(tw.(text := text)) == ParseTweet(tw)
  {
    RetweetMediaStageIgnoresOuterText(tw, text);
  }

  /** A quote: the text so far (the retweet line if any) loses its trailing
      link, and the quoted status's line follows on a new line. */
  lemma QuoteRewritesText(tw: RawTweet)
    requires tw.quotedStatus.Some? && tw.quotedStatus.value.extendedEntities.None?
    requires tw.extendedEntities.None?
    ensures ParseTweet(tw) == Success(Tweet(
      tw.id,
      StripTrailingLink(if tw.retweetedStatus.Some? then ShareLine(tw.retweetedStatus.value) else Unescape(tw.text))
        + "\n" + ShareLine(tw.quotedStatus.value),
      tw.createdAt, tw.user.name, tw.user.screenName, [], None))
  {
  }

  /** A quote discards the status's own URL entities. */
  lemma QuoteIgnoresUrls(tw: RawTweet, urls: seq<UrlEntity>)
    requires tw.quotedStatus.Some?
    ensures ParseTweet(tw.(entities := Entities(urls))) == ParseTweet(tw)
  {
  }

  /** A plain status: unescaped text with its URL entities expanded, and the
      first URL as link. */
  lemma PlainTweetExpandsUrls(tw: RawTweet)
    requires tw.retweetedStatus.None? && tw.quotedStatus.None? && tw.extendedEntities.None?
    ensures ParseTweet(tw) ==
      match ExpandUrls(Unescape(tw.text), tw.text, tw.entities.urls)
      case Failure(e) => Failure(e)
      case Success(text) => Success(Tweet(tw.id, text, tw.createdAt, tw.user.name, tw.user.screenName, [],
        if |tw.entities.urls| > 0 then Some(tw.entities.urls[0].expandedUrl) else None))
  {
  }

  /** The highest bitrate wins; a variant without bitrate is ignored. */
  lemma ExampleVideoVariants()
    ensures MediaOf(MediaEntity("https://t.co/v", "https://pbs/v.jpg", Some(VideoInfo([
      VideoVariant("A", Some(128)), VideoVariant("B", Some(512)), VideoVariant("C", None)]))))
      == Success(Media(Video, "B"))
  {
    var vs := [VideoVariant("A", Some(128)), VideoVariant("B", Some(512)), VideoVariant("C", None)];
    assert vs[..2][..1] == [VideoVariant("A", Some(128))];
    assert vs[..2] == [VideoVariant("A", Some(128)), VideoVariant("B", Some(512))];
  }

  /** Replacing a pattern that occurs only at the very end. */
  lemma ReplaceFinalOccurrence(prefix: string, link: string, expanded: string)
    requires |link| > 0
    requires forall i :: 0 <= i < |prefix| ==> !OccursAt(prefix + link, link, i)
    ensures ReplaceAll(prefix + link, link, expanded) == prefix + expanded
  {
    ReplaceAfterAbsent(prefix, link, link, expanded);
    assert StartsWith(link, link) && link[|link|..] == "";
    assert ReplaceAll(link, link, expanded) == expanded + ReplaceAll("", link, expanded);
  }

  /** A plain status whose text ends in its only link, with the indices of
      that link: the link is expanded in the text and becomes the tweet's link. */
  lemma SingleLinkExpanded(id: int, createdAt: string, user: RawUser, prefix: string, link: string, expanded: string)
    requires |link| > 0
    requires forall i :: 0 <= i < |prefix + link| ==> (prefix + link)[i] != '&'
    requires forall i :: 0 <= i < |prefix| ==> !OccursAt(prefix + link, link, i)
    ensures ParseTweet(RawTweet(id, createdAt, prefix + link, user,
      Entities([UrlEntity(link, expanded, [|prefix|, |prefix| + |link|])]), None, None, None))
      == Success(Tweet(id, prefix + expanded, createdAt, user.name, user.screenName, [], Some(expanded)))
  {
    var raw := prefix + link;
    var u := UrlEntity(link, expanded, [|prefix|, |prefix| + |link|]);
    PlainTweetExpandsUrls(RawTweet(id, createdAt, raw, user, Entities([u]), None, None, None));
    UnescapePlain(raw);
    ExpandFinalLink(prefix, link, expanded);
  }

  /** Expanding the one URL entity of a text that ends in its link. */
  lemma ExpandFinalLink(prefix: string, link: string, expanded: string)
    requires |link| > 0
    requires forall i :: 0 <= i < |prefix| ==> !OccursAt(prefix + link, link, i)
    ensures ExpandUrls(prefix + link, prefix + link, [UrlEntity(link, expanded, [|prefix|, |prefix| + |link|])])
      == Success(prefix + expanded)
  {
    var raw := prefix + link;
    var u := UrlEntity(link, expanded, [|prefix|, |prefix| + |link|]);
    assert DisplayText(raw, u) == link by {
      assert raw[|prefix|..|prefix| + |link|] == link;
    }
    ReplaceFinalOccurrence(prefix, link, expanded);
    assert [u][1..] == [];
    assert ExpandUrls(raw, raw, [u]) == ExpandUrls(ReplaceAll(raw, link, expanded), raw, []);
  }

  /** The same on a concrete status. */
  lemma ExampleLinkTweet()
    ensures ParseTweet(RawTweet(1, "Mon", "Check this out " + "t.co/abc", RawUser("N", "n"),
      Entities([UrlEntity("t.co/abc", "https://example.com/page", [15, 23])]), None, None, None))
      == Success(Tweet(1, "Check this out " + "https://example.com/page", "Mon", "N", "n", [],
                       Some("https://example.com/page")))
  {
    var prefix := "Check this out ";
    var link := "t.co/abc";
    var raw := prefix + link;
    assert forall j :: 0 <= j < |prefix| ==> prefix[j] != '.';
    forall i | 0 <= i < |prefix|
      ensures !OccursAt(raw, link, i)
    {
      assert raw[i + 1] != '.' by {
        if i + 1 < |prefix| {
          assert raw[i + 1] == prefix[i + 1];
        } else {
          assert raw[i + 1] == link[0];
        }
      }
      assert link[1] == '.';
      if i + |link| <= |raw| {
        assert raw[i..i + |link|][1] == raw[i + 1];
      }
    }
    SingleLinkExpanded(1, "Mon", RawUser("N", "n"), prefix, link, "https://example.com/page");
  }


}

=== FILE: store.dfy ===
/** The bot's tables as the core sees them: chats and subscription rows, and
    the periodic purge of chats marked for deletion (`update`). */
module Store {

  type ChatId = int

  /** The provider's account id, the key of the account table. */
  type UserId = int

  datatype TwUser = TwUser(userId: UserId, screenName: string, fullName: string)

  /** The account table: each account's record by its id. */
  type Accounts = map<UserId, TwUser>

  datatype Chat = Chat(chatId: ChatId, isGroup: bool, deleteSoon: bool)

  /** One subscription row: a chat follows a provider account, referred to
      by its key, so the account's names are read from the account table. */
  datatype Subscription = Subscription(chat: ChatId, userId: UserId)

  /** Chats by id and the subscription table in row order. */
  datatype Db = Db(chats: map<ChatId, Chat>, subs: seq<Subscription>)

  predicate NoDuplicates(rows: seq<Subscription>) {
    forall i, j :: 0 <= i < j < |rows| ==> rows[i] != rows[j]
  }

  /** `Subscription.select().where(...).count()` for one (account, chat) pair:
      the number of rows with those keys. */
  function Count(rows: seq<Subscription>, s: Subscription): (n: nat)
    ensures n == multiset(rows)[s]
    ensures n == 0 <==> s !in rows
    ensures NoDuplicates(rows) ==> n <= 1
  {
    if |rows| == 0 then 0
    else
      assert rows == [rows[0]] + rows[1..];
      assert forall k :: 0 <= k < |rows| - 1 ==> rows[1..][k] == rows[k + 1];
      (if rows[0] == s then 1 else 0) + Count(rows[1..], s)
  }

  /** The ids of the accounts a chat follows, in row order. */
  function ChatUsers(rows: seq<Subscription>, chat: ChatId): (users: seq<UserId>)
    ensures forall u :: u in users <==> Subscription(chat, u) in rows
    ensures forall i :: 0 <= i < |users| ==> Subscription(chat, users[i]) in rows
    ensures |users| <= |rows|
  {
    if |rows| == 0 then []
    else (if rows[0].chat == chat then [rows[0].userId] else []) + ChatUsers(rows[1..], chat)
  }

  /** The rows that survive deleting the chats in `gone` with their dependents. */
  function PurgeRows(rows: seq<Subscription>, gone: set<ChatId>): (r: seq<Subscription>)
    ensures forall s :: s in r <==> s in rows && s.chat !in gone
    ensures NoDuplicates(rows) ==> NoDuplicates(r)
  {
    if |rows| == 0 then []
    else
      var rest := PurgeRows(rows[1..], gone);
      assert forall s :: s in rows[1..] ==> s in rows;
      if rows[0].chat in gone then rest else [rows[0]] + rest
  }

  lemma {:induction false} ChatUsersPurge(rows: seq<Subscription>, gone: set<ChatId>, chat: ChatId)
    requires chat !in gone
    ensures ChatUsers(PurgeRows(rows, gone), chat) == ChatUsers(rows, chat)
    decreases |rows|
  {
    if |rows| > 0 {
      ChatUsersPurge(rows[1..], gone, chat);
      if rows[0].chat !in gone {
        assert ([rows[0]] + PurgeRows(rows[1..], gone))[1..] == PurgeRows(rows[1..], gone);
      }
    }
  }

  predicate Flagged(db: Db, c: ChatId) {
    c in db.chats && db.chats[c].deleteSoon
  }

  /** `update`: delete every chat flagged `delete_soon`, recursively. */
  function Update(db: Db): (r: Db)
    ensures forall c :: Flagged(db, c) ==> c !in r.chats
    ensures forall c :: c in r.chats ==> !r.chats[c].deleteSoon
    ensures forall c :: c in db.chats && !db.chats[c].deleteSoon ==> c in r.chats && r.chats[c] == db.chats[c]
    ensures r.chats.Keys <= db.chats.Keys
    ensures forall s :: s in r.subs <==> s in db.subs && !Flagged(db, s.chat)
    ensures forall c :: !Flagged(db, c) ==> ChatUsers(r.subs, c) == ChatUsers(db.subs, c)
    ensures NoDuplicates(db.subs) ==> NoDuplicates(r.subs)
  {
    var gone := set c | c in db.chats && db.chats[c].deleteSoon;
    forall c | !Flagged(db, c)
      ensures ChatUsers(PurgeRows(db.subs, gone), c) == ChatUsers(db.subs, c)
    {
      ChatUsersPurge(db.subs, gone, c);
    }
    Db(map c | c in db.chats && !db.chats[c].deleteSoon :: db.chats[c], PurgeRows(db.subs, gone))
  }

  /** A second purge finds nothing left to delete. */
  lemma UpdateIdempotent(db: Db)
    ensures Update(Update(db)) == Update(db)
  {
    var once := Update(db);
    assert forall c :: !Flagged(once, c);
    PurgeNothing(once.subs, set c | c in once.chats && once.chats[c].deleteSoon);
  }

  /** Purging chats that have no rows keeps the table as it is. */
  lemma {:induction false} PurgeNothing(rows: seq<Subscription>, gone: set<ChatId>)
    requires forall k :: 0 <= k < |rows| ==> rows[k].chat !in gone
    ensures PurgeRows(rows, gone) == rows
    decreases |rows|
  {
    if |rows| > 0 {
      var rest := rows[1..];
      assert forall k :: 0 <= k < |rest| ==> rest[k] == rows[k + 1];
      PurgeNothing(rest, gone);
      assert rows == [rows[0]] + rest;
    }
  }
}

=== FILE: streams.dfy ===
/** `FetchAndSendTweetsJob.streams`: one provider stream per chat, each with
    the list of account ids it follows. Threads are not modelled: a started
    thread is recorded, and what it does to the map is `StreamAsThread`. */
module Streams {
  import opened Wrappers
  import opened Decimal
  import opened Store

  /** An open provider connection, known only by identity. */
  datatype StreamHandle = StreamHandle(id: nat)

  /** The stream of a chat and the follow filter it was opened with. */
  datatype StreamEntry = StreamEntry(stream: StreamHandle, follow: seq<string>)

  type StreamMap = map<ChatId, StreamEntry>

  /** `[str(u) for u in users]` over account ids. */
  function UserIdStrings(users: seq<UserId>): (ids: seq<string>)
    ensures |ids| == |users|
    ensures forall i :: 0 <= i < |users| ==> ParseInt(ids[i]) == Some(users[i])
  {
    if |users| == 0 then []
    else
      ParseIntToStr(users[0]);
      [IntToStr(users[0])] + UserIdStrings(users[1..])
  }

  /** The filter a chat's stream follows: its subscriptions' account ids in row order. */
  function FollowList(rows: seq<Subscription>, chat: ChatId): seq<string>
  {
    UserIdStrings(ChatUsers(rows, chat))
  }

  /** Accounts with different ids get different filter entries. */
  lemma FollowListDistinct(rows: seq<Subscription>, chat: ChatId, i: nat, j: nat)
    requires i < |ChatUsers(rows, chat)| && j < |ChatUsers(rows, chat)|
    requires ChatUsers(rows, chat)[i] != ChatUsers(rows, chat)[j]
    ensures FollowList(rows, chat)[i] != FollowList(rows, chat)[j]
  {
  }

  /** `stream_as_thread`: record the chat's new stream and its filter. */
  function StreamAsThread(streams: StreamMap, rows: seq<Subscription>, chat: ChatId, stream: StreamHandle): (r: StreamMap)
    ensures r.Keys == streams.Keys + {chat}
    ensures r[chat].stream == stream
    ensures |r[chat].follow| == |ChatUsers(rows, chat)|
    ensures forall i :: 0 <= i < |ChatUsers(rows, chat)| ==>
      ParseInt(r[chat].follow[i]) == Some(ChatUsers(rows, chat)[i])
    ensures forall c :: c in streams && c != chat ==> r[c] == streams[c]
  {
    streams[chat := StreamEntry(stream, FollowList(rows, chat))]
  }

  /** The map after `subscription_changed` and the stream it disconnected. */
  datatype Change = Change(streams: StreamMap, disconnected: Option<StreamHandle>)

  /** `subscription_changed`: disconnect and forget the chat's stream, if any;
      the thread it then starts is the caller's to record. */
  function SubscriptionChanged(streams: StreamMap, chat: ChatId): (r: Change)
    ensures r.streams.Keys == streams.Keys - {chat}
    ensures forall c :: c in r.streams ==> r.streams[c] == streams[c]
    ensures r.disconnected.Some? <==> chat in streams
    ensures r.disconnected.Some? ==> r.disconnected.value == streams[chat].stream
  {
    if chat in streams then Change(streams - {chat}, Some(streams[chat].stream))
    else Change(streams, None)
  }

  /** A second notification for the same chat finds nothing to disconnect. */
  lemma SubscriptionChangedTwice(streams: StreamMap, chat: ChatId)
    ensures SubscriptionChanged(SubscriptionChanged(streams, chat).streams, chat)
      == Change(SubscriptionChanged(streams, chat).streams, None)
  {
  }

  /** A restart whose thread has run leaves exactly one stream for the chat,
      following its current subscriptions. */
  lemma RestartInstallsCurrentFilter(streams: StreamMap, rows: seq<Subscription>, chat: ChatId, stream: StreamHandle)
    ensures StreamAsThread(SubscriptionChanged(streams, chat).streams, rows, chat, stream)
      == streams[chat := StreamEntry(stream, FollowList(rows, chat))]
  {
  }

  /** The map after `run`, the streams it disconnected in order, and the
      chats it started a stream thread for, in order. */
  datatype RunResult = RunResult(streams: StreamMap, disconnected: seq<StreamHandle>, started: seq<ChatId>)

  /** `run`: `subscription_changed` for each chat in turn. */
  function Run(streams: StreamMap, chats: seq<ChatId>): (r: RunResult)
    ensures r.streams.Keys == streams.Keys - set c | c in chats
    ensures forall c :: c in r.streams ==> r.streams[c] == streams[c]
    ensures r.started == chats
    ensures |r.disconnected| <= |chats|
    decreases |chats|
  {
    if |chats| == 0 then RunResult(streams, [], [])
    else
      var init := chats[..|chats| - 1];
      var last := chats[|chats| - 1];
      var prev := Run(streams, init);
      var change := SubscriptionChanged(prev.streams, last);
      assert chats == init + [last];
      RunResult(change.streams,
                prev.disconnected + (if change.disconnected.Some? then [change.disconnected.value] else []),
                prev.started + [last])
  }

  /** `run` disconnects exactly the streams the listed chats had before it. */
  lemma {:induction false} RunDisconnects(streams: StreamMap, chats: seq<ChatId>)
    ensures forall k :: 0 <= k < |chats| && chats[k] in streams ==>
      streams[chats[k]].stream in Run(streams, chats).disconnected
    ensures forall h :: h in Run(streams, chats).disconnected ==>
      exists k :: 0 <= k < |chats| && chats[k] in streams && streams[chats[k]].stream == h
    decreases |chats|
  {
    if |chats| > 0 {
      var init := chats[..|chats| - 1];
      var last := chats[|chats| - 1];
      RunDisconnects(streams, init);
      var prev := Run(streams, init);
      var r := Run(streams, chats);
      assert forall k :: 0 <= k < |init| ==> chats[k] == init[k];
      forall k | 0 <= k < |chats| && chats[k] in streams
        ensures streams[chats[k]].stream in r.disconnected
      {
        if k < |init| {
          assert streams[init[k]].stream in prev.disconnected;
        } else if last in prev.streams {
          assert r.disconnected[|prev.disconnected|] == streams[last].stream;
        } else {
          var j :| 0 <= j < |init| && init[j] == last;
          assert streams[init[j]].stream in prev.disconnected;
        }
      }
      forall h | h in r.disconnected
        ensures exists k :: 0 <= k < |chats| && chats[k] in streams && streams[chats[k]].stream == h
      {
        if h in prev.disconnected {
          var k :| 0 <= k < |init| && init[k] in streams && streams[init[k]].stream == h;
          assert chats[k] == init[k];
        } else {
          assert chats[|chats| - 1] == last;
        }
      }
    }
  }
}

=== FILE: text.dfy ===
/** The string primitives the bot relies on, with Python's semantics:
    `str.replace`, `str.split`, `sep.join` and slicing `s[i:j]`. */
module Text {

  predicate StartsWith(s: string, prefix: string) {
    |prefix| <= |s| && s[..|prefix|] == prefix
  }

  /** `pat` occurs in `s` at position `i`. */
  predicate OccursAt(s: string, pat: string, i: int) {
    0 <= i && i + |pat| <= |s| && s[i..i + |pat|] == pat
  }

  predicate Occurs(s: string, pat: string) {
    exists i :: 0 <= i <= |s| && OccursAt(s, pat, i)
  }

  /** Python's `sep.join(parts)`. */
  function Join(sep: string, parts: seq<string>): string
  {
    if |parts| == 0 then ""
    else if |parts| == 1 then parts[0]
    else parts[0] + sep + Join(sep, parts[1..])
  }

  /** Python's `s.split(pat)` for a non-empty separator: cut `s` at the
      leftmost non-overlapping occurrences of `pat`. */
  function Split(s: string, pat: string): (parts: seq<string>)
    requires |pat| > 0
    ensures |parts| > 0
    decreases |s|
  {
    if StartsWith(s, pat) then [""] + Split(s[|pat|..], pat)
    else if |s| == 0 then [""]
    else
      var rest := Split(s[1..], pat);
      [[s[0]] + rest[0]] + rest[1..]
  }

  /** What `s.replace("", rep)` yields: `rep` before every character and at the end. */
  function Interleave(s: string, rep: string): string
  {
    if |s| == 0 then rep else rep + [s[0]] + Interleave(s[1..], rep)
  }

  /** Python's `s.replace(pat, rep)`: scan left to right, replacing every
      non-overlapping occurrence of `pat`; an empty `pat` matches at the
      start, between every two characters and at the end. */
  function ReplaceAll(s: string, pat: string, rep: string): string
    decreases |s|
  {
    if |pat| == 0 then Interleave(s, rep)
    else if StartsWith(s, pat) then rep + ReplaceAll(s[|pat|..], pat, rep)
    else if |s| == 0 then ""
    else [s[0]] + ReplaceAll(s[1..], pat, rep)
  }

  /** A slice bound normalised as Python does: negative counts from the end,
      anything out of range is clamped. */
  function ClampIndex(i: int, n: nat): (k: nat)
    ensures k <= n
    ensures 0 <= i <= n ==> k == i
    ensures -(n as int) <= i < 0 ==> k as int == n as int + i
    ensures i > n ==> k == n
    ensures i < -(n as int) ==> k == 0
  {
    if i < 0 then (if i + n < 0 then 0 else i + n)
    else if i > n then n
    else i
  }

  /** Python's `s[i:j]`, which never raises. */
  function PySlice(s: string, i: int, j: int): (r: string)
    ensures |r| <= |s|
    ensures 0 <= i <= j <= |s| ==> r == s[i..j]
    ensures |r| == if ClampIndex(i, |s|) < ClampIndex(j, |s|) then ClampIndex(j, |s|) - ClampIndex(i, |s|) else 0
    ensures OccursAt(s, r, ClampIndex(i, |s|))
  {
    var lo := ClampIndex(i, |s|);
    var hi := ClampIndex(j, |s|);
    if lo < hi then s[lo..hi] else ""
  }

  lemma JoinConsHead(sep: string, x: string, p: string, tail: seq<string>)
    ensures Join(sep, [x + p] + tail) == x + Join(sep, [p] + tail)
  {
    if |tail| > 0 {
      assert ([x + p] + tail)[1..] == tail;
      assert ([p] + tail)[1..] == tail;
    }
  }

  lemma JoinEmptyHead(sep: string, rest: seq<string>)
    requires |rest| > 0
    ensures Join(sep, [""] + rest) == sep + Join(sep, rest)
  {
    assert ([""] + rest)[1..] == rest;
  }

  /** Splitting on `pat` and joining with `pat` gives back the string. */
  lemma {:induction false} JoinSplit(s: string, pat: string)
    requires |pat| > 0
    ensures Join(pat, Split(s, pat)) == s
    decreases |s|
  {
    if StartsWith(s, pat) {
      JoinSplit(s[|pat|..], pat);
      JoinEmptyHead(pat, Split(s[|pat|..], pat));
      assert s == pat + s[|pat|..];
    } else if |s| == 0 {
    } else {
      var rest := Split(s[1..], pat);
      JoinSplit(s[1..], pat);
      JoinConsHead(pat, [s[0]], rest[0], rest[1..]);
      assert [rest[0]] + rest[1..] == rest;
      assert s == [s[0]] + s[1..];
    }
  }

  /** `replace` is "cut at the occurrences, glue with the replacement". */
  lemma {:induction false} ReplaceIsJoinOfSplit(s: string, pat: string, rep: string)
    requires |pat| > 0
    ensures ReplaceAll(s, pat, rep) == Join(rep, Split(s, pat))
    decreases |s|
  {
    if StartsWith(s, pat) {
      ReplaceIsJoinOfSplit(s[|pat|..], pat, rep);
      JoinEmptyHead(rep, Split(s[|pat|..], pat));
    } else if |s| == 0 {
    } else {
      var rest := Split(s[1..], pat);
      ReplaceIsJoinOfSplit(s[1..], pat, rep);
      JoinConsHead(rep, [s[0]], rest[0], rest[1..]);
      assert [rest[0]] + rest[1..] == rest;
    }
  }

  /** The first piece of a split is a prefix of the string. */
  lemma SplitHeadIsPrefix(s: string, pat: string)
    requires |pat| > 0
    ensures StartsWith(s, Split(s, pat)[0])
  {
    var parts := Split(s, pat);
    JoinSplit(s, pat);
    if |parts| > 1 {
      assert s == parts[0] + (pat + Join(pat, parts[1..]));
    }
  }

  /** No piece of a split contains the separator. */
  lemma {:induction false} SplitPiecesFree(s: string, pat: string)
    requires |pat| > 0
    ensures forall k :: 0 <= k < |Split(s, pat)| ==> !Occurs(Split(s, pat)[k], pat)
    decreases |s|
  {
    var parts := Split(s, pat);
    if StartsWith(s, pat) {
      SplitPiecesFree(s[|pat|..], pat);
      var rest := Split(s[|pat|..], pat);
      assert parts == [""] + rest;
      forall k | 0 <= k < |parts|
        ensures !Occurs(parts[k], pat)
      {
        if k > 0 {
          assert parts[k] == rest[k - 1];
        }
      }
    } else if |s| == 0 {
    } else {
      SplitPiecesFree(s[1..], pat);
      SplitHeadIsPrefix(s[1..], pat);
      var rest := Split(s[1..], pat);
      assert parts == [[s[0]] + rest[0]] + rest[1..];
      forall k | 0 <= k < |parts|
        ensures !Occurs(parts[k], pat)
      {
        if k == 0 {
          forall i | 0 < i <= |parts[0]| && i + |pat| <= |parts[0]|
            ensures !OccursAt(parts[0], pat, i)
          {
            assert parts[0][i..i + |pat|] == rest[0][i - 1..i - 1 + |pat|];
            assert !OccursAt(rest[0], pat, i - 1);
          }
        } else {
          assert parts[k] == rest[k];
        }
      }
    }
  }

  /** Replacing a string that does not occur changes nothing. */
  lemma {:induction false} ReplaceAbsent(s: string, pat: string, rep: string)
    requires |pat| > 0 && !Occurs(s, pat)
    ensures ReplaceAll(s, pat, rep) == s
    decreases |s|
  {
    assert !OccursAt(s, pat, 0);
    if |s| > 0 {
      if Occurs(s[1..], pat) {
        var i :| 0 <= i <= |s[1..]| && OccursAt(s[1..], pat, i);
        assert s[i + 1..i + 1 + |pat|] == s[1..][i..i + |pat|];
        assert OccursAt(s, pat, i + 1);
      }
      ReplaceAbsent(s[1..], pat, rep);
      assert s == [s[0]] + s[1..];
    }
  }

  /** `s.replace("", "")` inserts nothing. */
  lemma {:induction false} InterleaveEmpty(s: string)
    ensures Interleave(s, "") == s
    decreases |s|
  {
    if |s| > 0 {
      InterleaveEmpty(s[1..]);
      assert s == [s[0]] + s[1..];
    }
  }

  /** Every part of a join occurs in it. */
  lemma {:induction false} JoinContains(sep: string, parts: seq<string>, k: nat)
    requires k < |parts|
    ensures Occurs(Join(sep, parts), parts[k])
    decreases |parts|
  {
    if |parts| == 1 {
      assert OccursAt(Join(sep, parts), parts[k], 0);
    } else if k == 0 {
      assert OccursAt(Join(sep, parts), parts[0], 0);
    } else {
      JoinContains(sep, parts[1..], k - 1);
      assert parts[1..][k - 1] == parts[k];
      assert Join(sep, parts) == (parts[0] + sep) + Join(sep, parts[1..]);
      OccursInSuffix(parts[0] + sep, Join(sep, parts[1..]), parts[k]);
    }
  }

  /** An occurrence inside a piece is an occurrence in any string containing the piece. */
  lemma OccursInSuffix(a: string, b: string, pat: string)
    requires Occurs(b, pat)
    ensures Occurs(a + b, pat)
  {
    var i :| 0 <= i <= |b| && OccursAt(b, pat, i);
    assert (a + b)[|a| + i..|a| + i + |pat|] == b[i..i + |pat|];
    assert OccursAt(a + b, pat, |a| + i);
  }

  lemma OccursInPrefix(a: string, b: string, pat: string)
    requires Occurs(a, pat)
    ensures Occurs(a + b, pat)
  {
    var i :| 0 <= i <= |a| && OccursAt(a, pat, i);
    assert (a + b)[i..i + |pat|] == a[i..i + |pat|];
    assert OccursAt(a + b, pat, i);
  }

  /** Past a stretch where the pattern does not start, replacement goes on
      where the stretch ends. */
  lemma {:induction false} ReplaceAfterAbsent(a: string, b: string, pat: string, rep: string)
    requires |pat| > 0
    requires forall i :: 0 <= i < |a| ==> !OccursAt(a + b, pat, i)
    ensures ReplaceAll(a + b, pat, rep) == a + ReplaceAll(b, pat, rep)
    decreases |a|
  {
    if |a| > 0 {
      var s := a + b;
      var t := a[1..] + b;
      assert t == s[1..];
      OccursDropFirst(s, pat);
      ReplaceAfterAbsent(a[1..], b, pat, rep);
      ReplaceSkipsFirst(s, pat, rep);
      assert a == [a[0]] + a[1..];
    } else {
      assert a + b == b;
    }
  }

  /** Where the pattern does not start, the first character is kept as it is. */
  lemma ReplaceSkipsFirst(s: string, pat: string, rep: string)
    requires |pat| > 0 && |s| > 0 && !OccursAt(s, pat, 0)
    ensures ReplaceAll(s, pat, rep) == [s[0]] + ReplaceAll(s[1..], pat, rep)
  {
    assert !StartsWith(s, pat);
  }

  /** An occurrence in `s[1..]` is one in `s`, one place further on. */
  lemma OccursDropFirst(s: string, pat: string)
    requires |s| > 0
    ensures forall i :: 0 <= i && OccursAt(s[1..], pat, i) ==> OccursAt(s, pat, i + 1)
  {
    forall i | 0 <= i && OccursAt(s[1..], pat, i)
      ensures OccursAt(s, pat, i + 1)
    {
      assert s[1..][i..i + |pat|] == s[i + 1..i + 1 + |pat|];
    }
  }
}

=== FILE: tweets.dfy ===
/** The decoded provider status and the bot's own tweet record.
    Every field the parser tests with `hasattr` or `in` is an `Option`. */
module Tweets {
  import opened Wrappers

  datatype RawUser = RawUser(name: string, screenName: string)

  /** A URL entity: the short link, where the provider wants it to go, and
      the `[start, end)` position of its display text in the raw text. */
  datatype UrlEntity = UrlEntity(url: string, expandedUrl: string, indices: seq<int>)

  datatype Entities = Entities(urls: seq<UrlEntity>)

  /** One encoding of a video; only some variants declare a bitrate. */
  datatype VideoVariant = VideoVariant(url: string, bitrate: Option<int>)

  datatype VideoInfo = VideoInfo(variants: seq<VideoVariant>)

  /** A media entity: its short link in the text, the photo address, and
      for a video the available variants. */
  datatype MediaEntity = MediaEntity(url: string, mediaUrlHttps: string, videoInfo: Option<VideoInfo>)

  datatype ExtendedEntities = ExtendedEntities(media: seq<MediaEntity>)

  /** A status as decoded from the stream; retweeted and quoted statuses
      are statuses themselves. */
  datatype RawTweet = RawTweet(
    id: int,
    createdAt: string,
    text: string,
    user: RawUser,
    entities: Entities,
    extendedEntities: Option<ExtendedEntities>,
    retweetedStatus: Option<RawTweet>,
    quotedStatus: Option<RawTweet>)

  datatype MediaKind = Photo | Video

  datatype Media = Media(kind: MediaKind, url: string)

  /** The normalised tweet handed to delivery. */
  datatype Tweet = Tweet(
    id: int,
    text: string,
    createdAt: string,
    userName: string,
    userScreenName: string,
    mediaList: seq<Media>,
    linkUrl: Option<string>)

  /** Why a status cannot be normalised: `max` over no bitrate-bearing
      variant, or an `indices` list too short to index. */
  datatype ParseError = NoBitrateVariant(mediaUrl: string) | MissingIndices(url: string)
}

=== FILE: wrappers.dfy ===
/** The two outcome types of the model. Both support `:-`, so a step that
    fails ends the whole pipeline with that failure, as a raised exception does. */
module Wrappers {

  /** A value that may be missing: an absent JSON field, an account not found. */
  datatype Option<+T> = None | Some(value: T) {

    predicate IsFailure() {
      None?
    }

    function PropagateFailure<U>(): Option<U>
      requires None?
    {
      None
    }

    function Extract(): T
      requires Some?
    {
      value
    }
  }

  /** A parse step's value, or the error the source would raise at that point. */
  datatype Result<+R, +E> = Success(value: R) | Failure(error: E) {

    predicate IsFailure() {
      Failure?
    }

    function PropagateFailure<U>(): Result<U, E>
      requires Failure?
    {
      Failure(error)
    }

    function Extract(): R
      requires Success?
    {
      value
    }
  }
}
